=== FILE: README.md ===
# triton-ir-diff in Dafny

The model covers the batch core of triton-ir-diff. The tool compares
Triton compiler IR dumps (`.llir`, `.ptx`, `.ttgir`, `.ttir`) and writes
side-by-side HTML diff pages plus an index page that links to them. The
model covers four parts:

- **Line wrapping.** `_wrap_line`, and how `create_github_style_diff`
  prepares the two files for `difflib.HtmlDiff`.
- **Listing.** `list_ir_files`: which directory entries count as IR files.
- **The two batch modes.**
  - `compare_directories` pairs files of two directories by basename.
  - `generate_all_comparisons` pairs files of one directory that share an
    extension.
- **The index page.** `generate_index_html_content`, and where
  `generate_index_html` puts it.

One module per concern:

| module | file | contents |
|---|---|---|
| `Wrappers` | wrappers.dfy | `Option` and `Result` |
| `Seqs` | seqs.dfy | flattening, distinctness, order, filter, and the key order of a Python dict |
| `Paths` | paths.dfy | `os.path.basename`, `join`, and the extension half of `splitext`, for '/'-separated paths |
| `Naming` | naming.dfy | the comparison record, `if output_dir:` truthiness, and the diff-page and index-page file names |
| `Wrap` | wrap.dfy | `_wrap_line` and the wrap-and-flatten step |
| `DiffPage` | diff_page.dfy | `generate_html_diff`: the page path and the differ's input |
| `Listing` | listing.dfy | the IR-extension filter over a directory listing |
| `Matching` | matching.dfy | `compare_directories` |
| `Pairing` | pairing.dfy | `generate_all_comparisons` |
| `IndexPage` | index_page.dfy | the index page text, and a reader for it |
| `Report` | report.dfy | `generate_index_html` and the links between the pages |

The file system is replaced by values:

- a directory listing is a sequence of entry names;
- a file's contents are its sequence of lines;
- a written page is represented by the path it would be written to, and
  the `generate_html_diff` call behind it by the two files it diffs and the
  output path it passes (`Naming.DiffCall`).

An optional output directory is an `Option<string>`. `Some("")` counts as
not given wherever the source tests `if output_dir:`. It counts as a path
where `generate_html_diff` tests `is None`.

The index page has no parser in the source. The model adds one
(`IndexPage.ParsePage`) as the independent partner of the page writer.
The round-trip lemmas prove that the page lists every comparison once, in
order, with its labels and link.

Where the source's own comments and the code disagree, the model follows
the code:

- **Wrapping a line without '\n'.** A long line without a trailing '\n'
  gets a '\n' after every chunk, the last one included. The comment above
  that line of `_wrap_line` (html_utils.py:32) says "except the last one".
- **Default wrap width.** It is 120, as in the signature of
  `create_github_style_diff`. Its docstring (html_utils.py:46) says 80.

Two further facts about the code:

- **Width 0 and negative widths.** A width of 0 raises for any line that
  does not fit (a `range` step of 0). A negative width raises for every
  line, the empty line included (indexing an empty chunk list).
- **Index order.** The index lists comparisons in the order the batch
  loops produce them.

Page names are unique in `compare_directories` (`Report.DirectoryPagesDistinct`)
but not always in `generate_all_comparisons`. Take a directory holding
`p.ttir`, `q.ttir_vs_r.ttir`, `p.ttir_vs_q.ttir` and `r.ttir`, whose listing
puts `p.ttir` before `q.ttir_vs_r.ttir` and `p.ttir_vs_q.ttir` before
`r.ttir`. Then the pairs (`p.ttir`, `q.ttir_vs_r.ttir`) and
(`p.ttir_vs_q.ttir`, `r.ttir`) are both compared (`Pairing.ListedPairGenerated`),
and both pages are `comparison_p.ttir_vs_q.ttir_vs_r.ttir.html`
(`Pairing.PairPagesCollide`). The second write replaces the first, and two
rows of the index link to one page. Other listing orders can avoid the
clash, because the order of each pair follows the listing.

## Model

| member | source | states |
|---|---|---|
| Wrap.WrapLine | triton_differ/html_utils.py:6-35 | A line no longer than the width comes back alone. Wrapping fails exactly when the width is non-positive and the line does not fit. Width 0 gives the `range` error and a negative width the empty-list error. A success holds at least one chunk. |
| Wrap.ChunksFlatten | triton_differ/html_utils.py:26 | The chunks of the comprehension concatenate back to the line. |
| Wrap.ChunkCount | triton_differ/html_utils.py:26 | There are ceil(len / width) chunks. |
| Wrap.ChunkAt | triton_differ/html_utils.py:26 | Chunk k is the slice from k*width to k*width+width, clipped to the line's end. |
| Wrap.ChunkCharsFrom | triton_differ/html_utils.py:26 | Every character of a chunk occurs in the line. |
| Wrap.WrapLongLineShape | triton_differ/html_utils.py:17-35 | A long line gives ceil(n/width) pieces, where n is its length without its final '\n'. All but the last are width long, plus one for the '\n' when the line had none. The last piece holds 2 to width+1 characters and ends in '\n'. |
| Wrap.WrapRoundTripWithNewline | triton_differ/html_utils.py:20-30 | A line ending in '\n' is reproduced exactly by its pieces, and the last piece keeps the '\n'. |
| Wrap.WrapSingleNewline | triton_differ/html_utils.py:20-30 | For a `readlines` line, no piece but the last contains '\n'. |
| Wrap.WrapRoundTripWithoutNewline | triton_differ/html_utils.py:31-33 | A long line without '\n' gets '\n' on every piece, the last included. Removing them gives the line back. |
| Wrap.WrapLines | triton_differ/html_utils.py:57-63 | Wrapping a file succeeds for any positive width and never yields fewer lines. It fails exactly when some line fails, with that line's error. |
| Wrap.WrapLinesBlocks | triton_differ/html_utils.py:57-63 | The output is each input line's pieces, in input order. |
| Wrap.WrapLinesShortFile | triton_differ/html_utils.py:57-63 | A file whose lines all fit passes through unchanged. |
| Wrap.WrapLinesKeepsText | triton_differ/html_utils.py:57-63 | When every line fits or ends in '\n', the wrapped file has exactly the original text. |
| Wrap.PrepareDiff | triton_differ/html_utils.py:37-73 | The request to `HtmlDiff` fails exactly when wrapping either file fails, which needs a width below 1. Otherwise it carries each file wrapped line by line and flattened, no line longer than width+1, with the two basenames as headings, tab size 4 and the full file instead of context hunks. |
| Wrap.WrapLineWidth | triton_differ/html_utils.py:17-35 | For a positive width no piece of a wrapped line is longer than width+1. |
| Wrap.WrapLinesWidth | triton_differ/html_utils.py:57-63 | For a positive width no line of a wrapped file is longer than width+1. |
| DiffPage.GenerateHtmlDiff | triton_differ/core.py:26-37 | The page goes to the passed path, or else to "comparison_<b1>_vs_<b2>.html". The differ gets both files wrapped at 120 columns, with no line longer than 121 and the basenames as headings. A file whose lines all fit or end in '\n' keeps its text. |
| Paths.Basename | triton_differ/core.py:30-31 | The basename holds no '/'. |
| Paths.BasenameSuffix | triton_differ/core.py:30-31 | The basename is the whole path, or the part after its last '/'. |
| Paths.BasenameAfterSeparator | triton_differ/core.py:30-31 | A '/'-free name after an empty prefix or one ending in '/' is its own basename. |
| Paths.JoinBasename | triton_differ/core.py:45 | Joining an entry name onto a directory gives a path below the directory whose basename is that name. |
| Paths.ExtIff | triton_differ/core.py:47 | A path has extension e exactly when it ends in e and the final component before e is not dots alone. |
| Paths.ExtOfBasename | triton_differ/core.py:110 | `splitext` of a full path and of its basename give the same extension. |
| Paths.ExtOfJoin | triton_differ/core.py:110 | The extension of a listed path is that of its entry name. |
| Naming.DiffOutputPath | triton_differ/core.py:26-36 | A passed output path, even "", is used as is. Otherwise the page is a '/'-free name made of exactly "comparison_", the first basename, "_vs_", the second basename and ".html". |
| Naming.DiffFileNameParts | triton_differ/core.py:32 | Both names and the "_vs_" between them can be read back from a diff file name, and '/'-free names give a '/'-free file name. |
| Naming.IndexPath | triton_differ/core.py:144-147 | A given output directory gets "index.html" inside it. Otherwise the index is "ir_comparisons_index.html" in the working directory. |
| Listing.IrNameIff | triton_differ/core.py:40-48 | An entry is kept exactly when it ends in one of the four extensions after a non-dot stem. |
| Listing.IrNameKeptExamples | triton_differ/core.py:47-48 | "k.ttir" and "a..ttgir" are kept. |
| Listing.IrNameDroppedHidden | triton_differ/core.py:47-48 | ".ttir" and "..llir" are not kept (a leading dot is no extension). |
| Listing.IrNameDroppedBackup | triton_differ/core.py:47-48 | "a.ttir.bak" is not kept. |
| Listing.IrNameDroppedUpperCase | triton_differ/core.py:47-48 | "A.TTIR" is not kept (the comparison is case-sensitive). |
| Listing.ListedBasenames | triton_differ/core.py:44-49 | The basenames of the listed paths are exactly the kept entries, in order. |
| Listing.ListIrFilesIff | triton_differ/core.py:38-54 | A joined path is listed exactly when its entry is listed and kept. |
| Listing.ListedBefore | triton_differ/core.py:44-49 | Listed paths keep the relative order of their entries. |
| Listing.ListIrFilesDistinct | triton_differ/core.py:44-49 | A listing without repeats lists no path twice. |
| Seqs.Dedup | triton_differ/core.py:71-72 | The dict's keys are the inserted values without repeats: each appears, and nothing else. |
| Seqs.DedupFirstSeenOrder | triton_differ/core.py:71-72 | The dict's keys come in order of first insertion. |
| Matching.CommonNames | triton_differ/core.py:74-78 | The matched basenames are in both lists, and every basename of the first list found in the second is matched. |
| Matching.CommonNamesOrder | triton_differ/core.py:74-78 | Each matched basename appears once, in order of first appearance in the first directory. |
| Matching.LastWithBasename | triton_differ/core.py:71-72 | The dict lookup gives a listed path with the looked-up basename, and no later listed path has that basename (later entries overwrite earlier ones). |
| Matching.MatchCall | triton_differ/core.py:71-95 | The call for a matched basename diffs a path from each list, both with that basename, and passes "comparison_<name>.html" inside a given output directory, else no output path. |
| Matching.MatchCalls | triton_differ/core.py:89-95 | One call per matched basename, in order. Call k diffs two files whose basename is the k-th name, with the output path of `MatchCall`. |
| Matching.MatchComparison | triton_differ/core.py:90-99 | A match is labelled "<dir1 basename>/<name>" and "<dir2 basename>/<name>". Its page is "comparison_<name>.html" inside a given output directory, else "comparison_<name>_vs_<name>.html". |
| Matching.MatchAll | triton_differ/core.py:89-101 | One comparison per matched basename, in order, labelled and placed as above. |
| Matching.CompareFiles | triton_differ/core.py:70-101 | Over two lists of IR paths: one comparison per common basename, in order, labelled and placed as above. No match gives no comparison. |
| Matching.CompareDirectories | triton_differ/core.py:56-101 | The same, for the IR files of the two listings. |
| Matching.DirectoryCalls | triton_differ/core.py:89-95 | One `generate_html_diff` call per matched basename, in loop order. Call k diffs two files whose basename is the k-th matched name, and passes "comparison_<name>.html" inside a given output directory, else no output path. |
| Matching.ListedWithBasename | triton_differ/core.py:44-45 | For entry names, every listed path is the directory joined with its own basename. |
| Matching.DirectoryCallsFiles | triton_differ/core.py:71-95 | For entry names, the call for the k-th matched basename diffs `dir1/<name>` against `dir2/<name>`. |
| Matching.DirectoryCallsPages | triton_differ/core.py:89-99 | The k-th recorded comparison holds the path `generate_html_diff` returns for the k-th call. |
| Pairing.AddItem | triton_differ/core.py:109-113 | Filing an item appends it to its key's list, opening a new list at the end for a new key. No other list changes. |
| Pairing.AddItemFilters | triton_differ/core.py:109-113 | When every group holds exactly the items seen so far with its key, filing one more item keeps that true. |
| Pairing.GroupBy | triton_differ/core.py:107-113 | The groups' keys are the items' keys without repeats, in first-seen order. |
| Pairing.GroupItems | triton_differ/core.py:107-113 | Each group holds exactly the items with its key, in list order. |
| Pairing.PairsWithinCount | triton_differ/core.py:122-123 | A list of n files gives n(n-1)/2 pairs. |
| Pairing.PairsWithinIff | triton_differ/core.py:122-125 | (a, b) is a pair exactly when a occurs before b in the list. |
| Pairing.AllPairsIff | triton_differ/core.py:121-125 | A pair comes from the groups exactly when it comes from one group. |
| Pairing.GroupPairsIff | triton_differ/core.py:107-125 | (a, b) is paired exactly when a precedes b and both have the same extension. |
| Pairing.GroupPairsOnce | triton_differ/core.py:107-125 | With distinct files, no file is paired with itself and no pair appears reversed. |
| Pairing.PairsWithinDistinct | triton_differ/core.py:122-125 | The nested loops over a list without repeats produce no pair twice. |
| Pairing.AllPairsDistinct | triton_differ/core.py:121-125 | Groups with distinct keys, whose items carry their group's key and do not repeat, produce no pair twice. |
| Pairing.GroupPairsDistinct | triton_differ/core.py:107-125 | Over a list without repeats, grouping then pairing produces each same-key pair exactly once. |
| Pairing.AllPairsCount | triton_differ/core.py:121-125 | Groups holding the items of their keys give n(n-1)/2 pairs per key, n being the number of items with that key. |
| Pairing.GroupPairsCount | triton_differ/core.py:107-125 | Grouping then pairing gives, summed over the distinct keys, n(n-1)/2 pairs for a key held by n items. |
| Pairing.GeneratedPairsDistinct | triton_differ/core.py:103-125 | The directory mode compares no pair of files twice. |
| Pairing.GenerateAllComparisonsCount | triton_differ/core.py:103-137 | The directory mode makes, for every extension with n listed IR files, n(n-1)/2 comparisons. |
| Pairing.PairComparison | triton_differ/core.py:127-136 | A pair is labelled by its basenames. Its page is "comparison_<a>_vs_<b>.html", inside a given output directory or else in the working directory. |
| Pairing.ComparePairs | triton_differ/core.py:121-136 | One comparison per pair, in loop order, labelled by the pair's basenames. Its page is "comparison_<label1>_vs_<label2>.html", inside a given output directory or else in the working directory. |
| Pairing.ComparePairsHas | triton_differ/core.py:121-136 | Every pair yields a comparison labelled by its basenames. |
| Pairing.GeneratedPairListed | triton_differ/core.py:103-125 | Every compared pair is two listed IR files of one extension, in listing order. |
| Pairing.ListedPairGenerated | triton_differ/core.py:103-125 | Every two listed IR entries of one extension, in listing order, are compared. |
| Pairing.GenerateAllComparisonsIff | triton_differ/core.py:103-137 | A comparison labelled (a, b) exists exactly when a is listed before b, both are kept, and their extensions agree. |
| IndexPage.ParseRowOf | triton_differ/html_utils.py:146-153 | A comparison's row reads back as its two labels and the basename of its page, when no label holds '<' and the page name holds no '"'. The text after the row is left alone. |
| IndexPage.ParseRowsOf | triton_differ/html_utils.py:145-153 | The rows read back as the comparisons, in order, when no label holds '<' and no page name holds '"'. |
| IndexPage.ParseBetweenOf | triton_differ/html_utils.py:91-159 | Rows between any fixed head and foot read back, under the same markup-free condition. |
| IndexPage.IndexRoundTrip | triton_differ/html_utils.py:81-160 | The page lists every comparison once, in order, with both labels and a link to its page's file name. |
| Report.IndexPathPlaced | triton_differ/core.py:139-152 | The index page goes where a file of its basename would go for the same output directory. |
| Report.IndexPageReadsBack | triton_differ/core.py:141 | The page content reads back as the comparisons' rows. |
| Report.GenerateIndexHtml | triton_differ/core.py:139-152 | The index is "index.html" next to the diff pages, or "ir_comparisons_index.html", and its content lists the comparisons. |
| Report.CommonNamesPlain | triton_differ/core.py:71-78 | A matched basename holds no '/'. |
| Report.MatchPageNamePlain | triton_differ/core.py:92 | The page name of a '/'-free basename holds no '/'. |
| Report.DirectoryLinksResolve | triton_differ/core.py:90-99 | Every link on the index of `compare_directories`, taken from the index's directory, leads to that comparison's page. |
| Report.AllComparisonsLinksResolve | triton_differ/core.py:130-136 | Every link on the index of `generate_all_comparisons`, taken from the index's directory, leads to that comparison's page. |
| Report.JoinInjective | triton_differ/core.py:92 | Two different '/'-free page names joined onto one output directory give different paths. |
| Report.MatchPagesDiffer | triton_differ/core.py:32 | Different basenames get different page names, both for "comparison_<name>.html" and for "comparison_<name>_vs_<name>.html". |
| Report.DirectoryPagesDistinct | triton_differ/core.py:71-99 | `compare_directories` gives no two comparisons the same page, so no diff page overwrites another. |
| Matching.MatchedNamesIff | triton_differ/core.py:56-79 | A basename is matched exactly when both listings hold it and it is an IR name. |
| Pairing.TtirName | triton_differ/core.py:47-48 | A '/'-free stem not starting with '.', followed by ".ttir", is a kept IR name with extension ".ttir". |
| Pairing.JoinedTtirName | triton_differ/core.py:47-48 | Two ".ttir" names joined by "_vs_" are again a kept ".ttir" name. |
| Pairing.PageNameShift | triton_differ/core.py:131 | The pairs (a, b_vs_c) and (a_vs_b, c) share the page "comparison_a_vs_b_vs_c.html". |
| Pairing.PairPagesCollide | triton_differ/core.py:103-136 | For any stems p, q and r, the names p.ttir, q.ttir_vs_r.ttir, p.ttir_vs_q.ttir and r.ttir are all kept ".ttir" names, and the two pairs they form get the same page. |

## Left out

- **read_file** (core.py:13-24): opening a file, the UTF-8 then ISO-8859-1
  fallback, and print-and-exit on error. These are I/O; files enter the
  model as their sequences of lines.
- **File reading and writing in `create_github_style_diff`**. The
  rendering by `difflib.HtmlDiff.make_file` is in the standard library and
  is not modelled. The model stops at `Wrap.DiffRequest`, the arguments
  passed to it. `errors='replace'` decoding is left out too.
- **`os.listdir`, `os.path.isfile` and the exit on a listing error** are
  left out. A listing is the sequence of entry names of regular files.
- **`os.makedirs`, the page writes, every `print`, and `sys.exit`** are
  side effects and are left out.
- **Paths** follow POSIX rules with '/' only. Windows separators and drive
  letters are not modelled.
- **`cli.py`**, including the printing and `webbrowser.open` of its
  `compare` and `all` branches, is not modelled; the functions it calls are.
- The style sheet of the index page is kept verbatim as text. Nothing is
  proved about it.
- IndexPage.IndexRoundTrip: proved only when no label holds '<' and no page
  file name holds '"'. The page inserts both without escaping, so such
  characters make the row ambiguous.
- IndexPage.ParseRowOf: requires a label without '<' and a page file name
  without '"', for the same reason.
- IndexPage.ParseRowsOf: has the same markup-free condition.
- IndexPage.ParseBetweenOf: has the same markup-free condition.
- Report.GenerateIndexHtml: its read-back clause has the same markup-free
  condition as IndexPage.IndexRoundTrip.
- Report.IndexPageReadsBack: has the same markup-free condition.
- Listing.ListedBasenames, Listing.ListIrFilesIff, Listing.ListedBefore,
  Listing.ListIrFilesDistinct and the Pairing lemmas about listings assume
  entry names without '/', which is what `os.listdir` returns.
- Matching.MatchedNamesIff: assumes entry names without '/', as
  `os.listdir` returns them.
- Matching.DirectoryCallsFiles: assumes entry names without '/', as
  `os.listdir` returns them.
- Matching.ListedWithBasename: assumes entry names without '/'.

=== FILE: diff_page.dfy ===
/** `generate_html_diff`: one diff page, from the two files' lines (already
    read) to the path it is written to and what is handed to the differ. */
module DiffPage {
  import opened Wrappers
  import opened Seqs
  import opened Paths
  import opened Naming
  import opened Wrap

  /** The `wrap_length` of `create_github_style_diff`, which
      `generate_html_diff` leaves at its default. */
  const DefaultWrapLength: int := 120

  /** A diff page: where it is written and the differ's input. */
  datatype DiffPage = DiffPage(path: string, request: DiffRequest)

  /** `generate_html_diff(file1, file2, output_path)`, the reads and the
      write left out. The page goes to the passed path, or to
      "comparison_<b1>_vs_<b2>.html" in the working directory. The differ
      gets both files wrapped at 120 columns, so no line it sees is longer
      than 121 characters, and the text of a file whose lines all fit or end
      in '\n' is unchanged. */
  function GenerateHtmlDiff(lines1: seq<string>, lines2: seq<string>, file1: string, file2: string,
                            outputPath: Option<string>): (r: DiffPage)
    ensures outputPath.Some? ==> r.path == outputPath.value
    ensures outputPath.None? ==> r.path == DiffFileName(Basename(file1), Basename(file2))
    ensures r.request.fromLines == Flatten(Blocks(lines1, DefaultWrapLength))
    ensures r.request.toLines == Flatten(Blocks(lines2, DefaultWrapLength))
    ensures r.request.fromDesc == Basename(file1) && r.request.toDesc == Basename(file2)
    ensures forall k :: 0 <= k < |r.request.fromLines| ==> |r.request.fromLines[k]| <= DefaultWrapLength + 1
    ensures forall k :: 0 <= k < |r.request.toLines| ==> |r.request.toLines[k]| <= DefaultWrapLength + 1
    ensures (forall i :: 0 <= i < |lines1| ==> EndsWithNewline(lines1[i]) || |lines1[i]| <= DefaultWrapLength)
      ==> Flatten(r.request.fromLines) == Flatten(lines1)
    ensures (forall i :: 0 <= i < |lines2| ==> EndsWithNewline(lines2[i]) || |lines2[i]| <= DefaultWrapLength)
      ==> Flatten(r.request.toLines) == Flatten(lines2)
  {
    var request := PrepareDiff(lines1, lines2, file1, file2, DefaultWrapLength).value;
    assert (forall i :: 0 <= i < |lines1| ==> EndsWithNewline(lines1[i]) || |lines1[i]| <= DefaultWrapLength)
      ==> Flatten(request.fromLines) == Flatten(lines1)
    by {
      if forall i :: 0 <= i < |lines1| ==> EndsWithNewline(lines1[i]) || |lines1[i]| <= DefaultWrapLength {
        WrapLinesKeepsText(lines1, DefaultWrapLength);
      }
    }
    assert (forall i :: 0 <= i < |lines2| ==> EndsWithNewline(lines2[i]) || |lines2[i]| <= DefaultWrapLength)
      ==> Flatten(request.toLines) == Flatten(lines2)
    by {
      if forall i :: 0 <= i < |lines2| ==> EndsWithNewline(lines2[i]) || |lines2[i]| <= DefaultWrapLength {
        WrapLinesKeepsText(lines2, DefaultWrapLength);
      }
    }
    DiffPage(DiffOutputPath(file1, file2, outputPath), request)
  }
}

=== FILE: index_page.dfy ===
/** `generate_index_html_content`: the index page listing every
    comparison, one table row each, linking to the diff page by its file
    name. */
module IndexPage {
  import opened Wrappers
  import opened Paths
  import opened Naming

  /** The fixed start of the page: document head with its style sheet, the
      title, and the table's header row; one literal per line of the page. */
  const IndexHeader: string :=
    "<!DOCTYPE html>\n" +
    "<html>\n" +
    "<head>\n" +
    "    <meta charset=\"utf-8\">\n" +
    "    <title>IR Comparisons Index</title>\n" +
    "    <style>\n" +
    "        body {\n" +
    "            font-family: -apple-system, BlinkMacSystemFont, \"Segoe UI\", Helvetica, Arial, sans-serif;\n" +
    "            line-height: 1.5;\n" +
    "            max-width: 1200px;\n" +
    "            margin: 0 auto;\n" +
    "            padding: 20px;\n" +
    "        }\n" +
    "        h1 {\n" +
    "            border-bottom: 1px solid #eaecef;\n" +
    "            padding-bottom: 10px;\n" +
    "        }\n" +
    "        table {\n" +
    "            border-collapse: collapse;\n" +
    "            width: 100%;\n" +
    "        }\n" +
    "        th, td {\n" +
    "            text-align: left;\n" +
    "            padding: 12px;\n" +
    "            border: 1px solid #dfe2e5;\n" +
    "        }\n" +
    "        th {\n" +
    "            background-color: #f6f8fa;\n" +
    "        }\n" +
    "        tr:nth-child(even) {\n" +
    "            background-color: #f6f8fa;\n" +
    "        }\n" +
    "        tr:hover {\n" +
    "            background-color: #f0f0f0;\n" +
    "        }\n" +
    "        a {\n" +
    "            color: #0366d6;\n" +
    "            text-decoration: none;\n" +
    "        }\n" +
    "        a:hover {\n" +
    "            text-decoration: underline;\n" +
    "        }\n" +
    "    </style>\n" +
    "</head>\n" +
    "<body>\n" +
    "    <h1>IR Comparisons Index</h1>\n" +
    "    <table>\n" +
    "        <tr>\n" +
    "            <th>File 1</th>\n" +
    "            <th>File 2</th>\n" +
    "            <th>Comparison</th>\n" +
    "        </tr>\n"

  /** The fixed end of the page, closing the table and the document. */
  const IndexFooter: string := "\n    </table>\n</body>\n</html>\n"

  /** The fixed text around the three cells of a row: before the first
      label, between the labels, between the second label and the link
      target, and after the link target. */
  datatype Markup = Markup(rowOpen: string, cellBreak: string, linkOpen: string, linkClose: string)

  const RowOpen: string := "\n        <tr>\n            <td>"
  const CellBreak: string := "</td>\n            <td>"
  const LinkOpen: string := CellBreak + "<a href=\""
  const LinkClose: string := "\" target=\"_blank\">" + "View Diff</a></td>\n        </tr>"

  /** The markup of the index page's rows. */
  const RowMarkup: Markup := Markup(RowOpen, CellBreak, LinkOpen, LinkClose)

  /** Markup that a reader can find again after a cell: each cell's closing
      text starts with the character the cell may not hold. */
  predicate Delimits(m: Markup)
  {
    && |m.cellBreak| > 0 && m.cellBreak[0] == '<'
    && |m.linkOpen| > 0 && m.linkOpen[0] == '<'
    && |m.linkClose| > 0 && m.linkClose[0] == '"'
  }

  /** The link target of a row: the diff page's file name, which resolves
      next to the index page. */
  function Href(c: Comparison): string
  {
    Basename(c.path)
  }

  /** The text of the row for one comparison: both labels as they are,
      then the link. */
  function RowText(m: Markup, c: Comparison): string
  {
    m.rowOpen + c.label1 + m.cellBreak + c.label2 + m.linkOpen + Href(c) + m.linkClose
  }

  /** The loop appending one row per comparison, in order. */
  function RowsText(m: Markup, cs: seq<Comparison>): string
  {
    if |cs| == 0 then "" else RowText(m, cs[0]) + RowsText(m, cs[1..])
  }

  /** The whole page for the comparisons `cs`. */
  function IndexHtmlContent(cs: seq<Comparison>): string
  {
    IndexHeader + RowsText(RowMarkup, cs) + IndexFooter
  }

  /** What a reader of the page sees in one row. */
  datatype Row = Row(label1: string, label2: string, href: string)

  function RowOf(c: Comparison): Row
  {
    Row(c.label1, c.label2, Href(c))
  }

  /** The rows of the comparisons, in order. */
  function RowsOf(cs: seq<Comparison>): (r: seq<Row>)
    ensures |r| == |cs|
    ensures forall k :: 0 <= k < |cs| ==> r[k] == RowOf(cs[k])
  {
    if |cs| == 0 then [] else [RowOf(cs[0])] + RowsOf(cs[1..])
  }

  /** The page inserts labels and link targets without escaping, so a row
      reads back unambiguously only when they hold no markup: no '<' in a
      label and no '"' in a link target. */
  predicate Plain(c: Comparison)
  {
    '<' !in c.label1 && '<' !in c.label2 && '"' !in Href(c)
  }

  predicate StartsWith(s: string, p: string)
  {
    |p| <= |s| && s[..|p|] == p
  }

  /** The longest prefix of `s` without `c`. */
  function TakeUntil(s: string, c: char): (r: string)
    ensures |r| <= |s| && s[..|r|] == r
    ensures c !in r
    ensures |r| < |s| ==> s[|r|] == c
  {
    if |s| == 0 || s[0] == c then ""
    else
      var rest := TakeUntil(s[1..], c);
      assert forall k :: 0 <= k < |rest| ==> rest[k] == s[k + 1];
      [s[0]] + rest
  }

  /** Text without `c`, followed by `c`, is cut exactly at that `c`. */
  lemma {:induction false} TakeUntilStops(x: string, y: string, c: char)
    requires c !in x
    requires |y| > 0 && y[0] == c
    ensures TakeUntil(x + y, c) == x
    decreases |x|
  {
    if |x| > 0 {
      assert (x + y)[1..] == x[1..] + y;
      TakeUntilStops(x[1..], y, c);
    }
  }

  /** Consumes the fixed text `p` at the front of `s`. */
  function Expect(s: string, p: string): (r: Option<string>)
    ensures r.Some? ==> |r.value| == |s| - |p|
  {
    if StartsWith(s, p) then Some(s[|p|..]) else None
  }

  /** Splits `s` at its first `c`: the field before it and the rest. */
  function Field(s: string, c: char): (r: (string, string))
    ensures |r.1| == |s| - |r.0|
  {
    var f := TakeUntil(s, c);
    (f, s[|f|..])
  }

  /** Reads one row off the front of `s`, giving the row and the text after
      it. */
  function ParseRow(m: Markup, s: string): (r: Option<(Row, string)>)
    ensures r.Some? ==> |r.value.1| <= |s| - |m.linkClose|
  {
    match Expect(s, m.rowOpen)
    case None => None
    case Some(s1) =>
      var (l1, s2) := Field(s1, '<');
      match Expect(s2, m.cellBreak)
      case None => None
      case Some(s3) =>
        var (l2, s4) := Field(s3, '<');
        match Expect(s4, m.linkOpen)
        case None => None
        case Some(s5) =>
          var (h, s6) := Field(s5, '"');
          match Expect(s6, m.linkClose)
          case None => None
          case Some(s7) => Some((Row(l1, l2, h), s7))
  }

  /** Reads rows until the text runs out. */
  function ParseRows(m: Markup, s: string): Option<seq<Row>>
    requires Delimits(m)
    decreases |s|
  {
    if |s| == 0 then Some([])
    else
      match ParseRow(m, s)
      case None => None
      case Some((row, rest)) =>
        match ParseRows(m, rest)
        case None => None
        case Some(rows) => Some([row] + rows)
  }

  /** Reads the rows between a fixed head and a fixed foot. */
  function ParseBetween(m: Markup, s: string, head: string, foot: string): Option<seq<Row>>
    requires Delimits(m)
  {
    if |s| < |head| + |foot| || !StartsWith(s, head) || s[|s| - |foot|..] != foot then None
    else ParseRows(m, s[|head|..|s| - |foot|])
  }

  lemma RowMarkupDelimits()
    ensures Delimits(RowMarkup)
  {
  }

  /** Reads a whole index page back into its rows. */
  function ParsePage(s: string): Option<seq<Row>>
  {
    RowMarkupDelimits();
    ParseBetween(RowMarkup, s, IndexHeader, IndexFooter)
  }

  lemma ExpectOf(p: string, t: string)
    ensures Expect(p + t, p) == Some(t)
  {
    assert (p + t)[..|p|] == p;
    assert (p + t)[|p|..] == t;
  }

  lemma FieldOf(x: string, y: string, c: char)
    requires c !in x
    requires |y| > 0 && y[0] == c
    ensures Field(x + y, c) == (x, y)
  {
    TakeUntilStops(x, y, c);
    assert (x + y)[|x|..] == y;
  }

  /** The text after each cell of a row: from the first cell on, from
      the second cell on, from the link target on. */
  function AfterFirst(m: Markup, c: Comparison, rest: string): string
  {
    m.cellBreak + (c.label2 + AfterSecond(m, c, rest))
  }

  function AfterSecond(m: Markup, c: Comparison, rest: string): string
  {
    m.linkOpen + (Href(c) + AfterLink(m, rest))
  }

  function AfterLink(m: Markup, rest: string): string
  {
    m.linkClose + rest
  }

  /** Each step of the reader on a row's text finds what was written. */
  lemma ParseRowSteps(m: Markup, c: Comparison, rest: string)
    requires Delimits(m) && Plain(c)
    ensures Expect(RowText(m, c) + rest, m.rowOpen) == Some(c.label1 + AfterFirst(m, c, rest))
    ensures Field(c.label1 + AfterFirst(m, c, rest), '<') == (c.label1, AfterFirst(m, c, rest))
    ensures Expect(AfterFirst(m, c, rest), m.cellBreak) == Some(c.label2 + AfterSecond(m, c, rest))
    ensures Field(c.label2 + AfterSecond(m, c, rest), '<') == (c.label2, AfterSecond(m, c, rest))
    ensures Expect(AfterSecond(m, c, rest), m.linkOpen) == Some(Href(c) + AfterLink(m, rest))
    ensures Field(Href(c) + AfterLink(m, rest), '"') == (Href(c), AfterLink(m, rest))
    ensures Expect(AfterLink(m, rest), m.linkClose) == Some(rest)
  {
    var h := Href(c);
    var t3 := AfterLink(m, rest);
    var t2 := AfterSecond(m, c, rest);
    var t1 := AfterFirst(m, c, rest);
    assert RowText(m, c) + rest == m.rowOpen + (c.label1 + t1);
    ExpectOf(m.rowOpen, c.label1 + t1);
    FieldOf(c.label1, t1, '<');
    ExpectOf(m.cellBreak, c.label2 + t2);
    FieldOf(c.label2, t2, '<');
    ExpectOf(m.linkOpen, h + t3);
    FieldOf(h, t3, '"');
    ExpectOf(m.linkClose, rest);
  }

  /** A comparison's row without markup in its cells reads back as its two
      labels and link, leaving the text after it. */
  lemma ParseRowOf(m: Markup, c: Comparison, rest: string)
    requires Delimits(m) && Plain(c)
    ensures ParseRow(m, RowText(m, c) + rest) == Some((RowOf(c), rest))
  {
    ParseRowSteps(m, c, rest);
  }

  /** The rows of comparisons without markup read back in order. */
  lemma {:induction false} ParseRowsOf(m: Markup, cs: seq<Comparison>)
    requires Delimits(m)
    requires forall k :: 0 <= k < |cs| ==> Plain(cs[k])
    ensures ParseRows(m, RowsText(m, cs)) == Some(RowsOf(cs))
    decreases |cs|
  {
    if |cs| > 0 {
      var tail := RowsText(m, cs[1..]);
      ParseRowOf(m, cs[0], tail);
      ParseRowsOf(m, cs[1..]);
    }
  }

  /** Rows between any head and foot read back. */
  lemma ParseBetweenOf(m: Markup, head: string, foot: string, cs: seq<Comparison>)
    requires Delimits(m)
    requires forall k :: 0 <= k < |cs| ==> Plain(cs[k])
    ensures ParseBetween(m, head + RowsText(m, cs) + foot, head, foot) == Some(RowsOf(cs))
  {
    var s := head + RowsText(m, cs) + foot;
    assert s[..|head|] == head;
    assert s[|s| - |foot|..] == foot;
    assert s[|head|..|s| - |foot|] == RowsText(m, cs);
    ParseRowsOf(m, cs);
  }

  /** The index page lists every comparison, once and in order, with its two
      labels and the file name of its diff page, provided no label holds a
      '<' and no file name a '"'. */
  lemma IndexRoundTrip(cs: seq<Comparison>)
    requires forall k :: 0 <= k < |cs| ==> Plain(cs[k])
    ensures ParsePage(IndexHtmlContent(cs)) == Some(RowsOf(cs))
  {
    RowMarkupDelimits();
    ParseBetweenOf(RowMarkup, IndexHeader, IndexFooter, cs);
  }

}

=== FILE: listing.dfy ===
/** `list_ir_files`: which directory entries count as IR files. The
    directory listing is an input sequence of entry names, all of them
    regular files. */
module Listing {
  import opened Seqs
  import opened Paths

  /** The allow-list, compared exactly (case-sensitive). */
  const IrExtensions: seq<string> := [".llir", ".ptx", ".ttgir", ".ttir"]

  /** An entry is kept when `splitext` gives it one of the allowed extensions. */
  predicate IsIrName(name: string)
  {
    Ext(name) in IrExtensions
  }

  /** `list_ir_files(dir)` over the listing `names`: the entries that pass
      the filter, in listing order, each joined onto `dir`. What this means
      for a listing of entry names is stated by `ListIrFilesIff` and
      `ListedBefore`. */
  function ListIrFiles(dir: string, names: seq<string>): (r: seq<string>)
    ensures |r| == |Filter(names, IsIrName)|
    ensures forall i :: 0 <= i < |r| ==> r[i] == Join(dir, Filter(names, IsIrName)[i])
  {
    var kept := Filter(names, IsIrName);
    seq(|kept|, i requires 0 <= i < |kept| => Join(dir, kept[i]))
  }

  /** For entry names (no '/'), the basenames of the listed files are exactly
      the entries that pass the filter, in listing order. */
  lemma ListedBasenames(dir: string, names: seq<string>)
    requires forall i :: 0 <= i < |names| ==> '/' !in names[i]
    ensures Basenames(ListIrFiles(dir, names)) == Filter(names, IsIrName)
  {
    var k := Filter(names, IsIrName);
    var r := ListIrFiles(dir, names);
    var bases := Basenames(r);
    FilterMembers(names, IsIrName);
    forall i | 0 <= i < |k|
      ensures bases[i] == k[i]
    {
      var m :| 0 <= m < |names| && names[m] == k[i];
      JoinBasename(dir, k[i]);
      assert bases[i] == Basename(r[i]) && r[i] == Join(dir, k[i]);
    }
    assert |bases| == |k|;
  }

  /** For entry names, a path is listed exactly when it is the join of a
      listed entry that passes the filter. */
  lemma ListIrFilesIff(dir: string, names: seq<string>, name: string)
    requires forall i :: 0 <= i < |names| ==> '/' !in names[i]
    requires '/' !in name
    ensures Join(dir, name) in ListIrFiles(dir, names) <==> name in names && IsIrName(name)
  {
    var k := Filter(names, IsIrName);
    var r := ListIrFiles(dir, names);
    FilterMembers(names, IsIrName);
    ListedBasenames(dir, names);
    JoinBasename(dir, name);
    if Join(dir, name) in r {
      var i :| 0 <= i < |r| && r[i] == Join(dir, name);
      assert Basenames(r)[i] == name;
    }
    if name in names && IsIrName(name) {
      var m :| 0 <= m < |names| && names[m] == name;
      var i :| 0 <= i < |k| && k[i] == name;
      assert r[i] == Join(dir, name);
    }
  }

  /** For entry names, one listed path comes before another exactly when
      their entries come in that order in the listing and both pass the
      filter. */
  lemma ListedBefore(dir: string, names: seq<string>, a: string, b: string)
    requires forall i :: 0 <= i < |names| ==> '/' !in names[i]
    requires '/' !in a && '/' !in b
    ensures Before(ListIrFiles(dir, names), Join(dir, a), Join(dir, b))
        <==> Before(names, a, b) && IsIrName(a) && IsIrName(b)
  {
    var k := Filter(names, IsIrName);
    var r := ListIrFiles(dir, names);
    ListedBasenames(dir, names);
    JoinBasename(dir, a);
    JoinBasename(dir, b);
    FilterBefore(names, IsIrName, a, b);
    if Before(r, Join(dir, a), Join(dir, b)) {
      var i, j :| 0 <= i < j < |r| && r[i] == Join(dir, a) && r[j] == Join(dir, b);
      assert Basenames(r)[i] == a && Basenames(r)[j] == b;
      assert k[i] == a && k[j] == b;
    }
    if Before(k, a, b) {
      var i, j :| 0 <= i < j < |k| && k[i] == a && k[j] == b;
      assert r[i] == Join(dir, a) && r[j] == Join(dir, b);
    }
  }

  /** A directory never lists a name twice, so no file is listed twice. */
  lemma ListIrFilesDistinct(dir: string, names: seq<string>)
    requires forall i :: 0 <= i < |names| ==> '/' !in names[i]
    requires Distinct(names)
    ensures Distinct(ListIrFiles(dir, names))
  {
    var r := ListIrFiles(dir, names);
    ListedBasenames(dir, names);
    FilterDistinct(names, IsIrName);
    forall i, j | 0 <= i < j < |r|
      ensures r[i] != r[j]
    {
      assert Basenames(r)[i] != Basenames(r)[j];
    }
  }

  lemma IrExtensionsShaped()
    ensures forall e :: e in IrExtensions ==> ExtensionShaped(e)
  {
    assert ExtensionShaped(".llir") by { assert ".llir"[1..] == "llir"; }
    assert ExtensionShaped(".ptx") by { assert ".ptx"[1..] == "ptx"; }
    assert ExtensionShaped(".ttgir") by { assert ".ttgir"[1..] == "ttgir"; }
    assert ExtensionShaped(".ttir") by { assert ".ttir"[1..] == "ttir"; }
  }

  /** Independent description of the filter: a name is kept exactly when it
      ends in an allowed extension and what comes before it, within the last
      path component, is not made of dots alone. */
  lemma IrNameIff(name: string)
    ensures IsIrName(name) <==>
      exists e :: e in IrExtensions && |e| <= |name| && name[|name| - |e|..] == e && NamedStem(name[..|name| - |e|])
  {
    IrExtensionsShaped();
    forall e | e in IrExtensions
      ensures Ext(name) == e <==> |e| <= |name| && name[|name| - |e|..] == e && NamedStem(name[..|name| - |e|])
    {
      ExtIff(name, e);
    }
  }

  /** Edge cases of the filter: an allowed extension after a real name is
      kept, even behind extra dots. */
  lemma IrNameKeptExamples()
    ensures IsIrName("k.ttir") && IsIrName("a..ttgir")
  {
    RFindUnique("k.ttir", '/', -1);
    RFindUnique("k.ttir", '.', 1);
    assert HasNonDot("k.ttir", 0, 1) by { assert "k.ttir"[0] != '.'; }
    assert "k.ttir"[1..] == ".ttir";
    RFindUnique("a..ttgir", '/', -1);
    RFindUnique("a..ttgir", '.', 2);
    assert HasNonDot("a..ttgir", 0, 2) by { assert "a..ttgir"[0] != '.'; }
    assert "a..ttgir"[2..] == ".ttgir";
  }

  /** A leading dot does not start an extension: hidden files are dropped
      however many dots they begin with. */
  lemma IrNameDroppedHidden()
    ensures !IsIrName(".ttir") && !IsIrName("..llir")
  {
    RFindUnique(".ttir", '/', -1);
    RFindUnique(".ttir", '.', 0);
    RFindUnique("..llir", '/', -1);
    RFindUnique("..llir", '.', 1);
    assert !HasNonDot("..llir", 0, 1) by { assert "..llir"[0] == '.'; }
  }

  /** Only the last dot counts: a backup of an IR file is dropped. */
  lemma IrNameDroppedBackup()
    ensures !IsIrName("a.ttir.bak")
  {
    RFindUnique("a.ttir.bak", '/', -1);
    RFindUnique("a.ttir.bak", '.', 6);
    assert HasNonDot("a.ttir.bak", 0, 6) by { assert "a.ttir.bak"[0] != '.'; }
    assert "a.ttir.bak"[6..] == ".bak";
  }

  /** The comparison is case-sensitive. */
  lemma IrNameDroppedUpperCase()
    ensures !IsIrName("A.TTIR")
  {
    RFindUnique("A.TTIR", '/', -1);
    RFindUnique("A.TTIR", '.', 1);
    assert HasNonDot("A.TTIR", 0, 1) by { assert "A.TTIR"[0] != '.'; }
    assert "A.TTIR"[1..] == ".TTIR";
  }

}

=== FILE: matching.dfy ===
/** `compare_directories`: pair up the IR files of two directories by
    basename and name the comparison pages. Listings are input sequences of
    entry names; writing the pages is left out, only the paths are kept. */
module Matching {
  import opened Wrappers
  import opened Seqs
  import opened Paths
  import opened Naming
  import opened Listing

  /** The loop over `basenames1.items()` keeping names that are keys of
      `basenames2`: the dict's keys are the basenames of the first list
      without repeats, in first-seen order. */
  function CommonNames(bases1: seq<string>, bases2: seq<string>): (r: seq<string>)
    ensures forall i :: 0 <= i < |r| ==> r[i] in bases1 && r[i] in bases2
    ensures forall i :: 0 <= i < |bases1| && bases1[i] in bases2 ==> bases1[i] in r
  {
    FilterMembers(Dedup(bases1), Within(bases2));
    Filter(Dedup(bases1), Within(bases2))
  }

  /** Each common basename appears once, and they come in the order in which
      they first appear in the first list. */
  lemma CommonNamesOrder(bases1: seq<string>, bases2: seq<string>)
    ensures Distinct(CommonNames(bases1, bases2))
    ensures var r := CommonNames(bases1, bases2);
      forall i, j :: 0 <= i < j < |r| ==> FirstIndex(bases1, r[i]) < FirstIndex(bases1, r[j])
  {
    var keys := Dedup(bases1);
    DedupFirstSeenOrder(bases1);
    FilterDistinct(keys, Within(bases2));
    FilterMembers(keys, Within(bases2));
    var r := Filter(keys, Within(bases2));
    forall i, j | 0 <= i < j < |r|
      ensures FirstIndex(bases1, r[i]) < FirstIndex(bases1, r[j])
    {
      var p, q := FilterOrder(keys, Within(bases2), i, j);
    }
  }

  /** `files[i]` has no later path with basename `name`. */
  predicate NoLaterBasename(files: seq<string>, name: string, i: nat)
  {
    forall j :: i < j < |files| ==> Basename(files[j]) != name
  }

  /** Appending a path of another basename keeps a path the last one with
      `name`. */
  lemma NoLaterBasenameSnoc(files: seq<string>, name: string, i: nat)
    requires |files| > 0 && i < |files| - 1
    requires NoLaterBasename(files[..|files| - 1], name, i)
    requires Basename(files[|files| - 1]) != name
    ensures NoLaterBasename(files, name, i)
  {
    var n := |files| - 1;
    forall j | i < j < |files|
      ensures Basename(files[j]) != name
    {
      if j < n {
        assert files[..n][j] == files[j];
      }
    }
  }

  /** The dict lookup `basenames[name]`: the last listed path with that
      basename (later entries overwrite earlier ones). */
  function LastWithBasename(files: seq<string>, name: string): (p: string)
    requires HasBasename(files, name)
    ensures Basename(p) == name
    ensures exists i :: 0 <= i < |files| && files[i] == p && NoLaterBasename(files, name, i)
    decreases |files|
  {
    var n := |files| - 1;
    if Basename(files[n]) == name then
      assert NoLaterBasename(files, name, n);
      files[n]
    else
      var init := files[..n];
      assert HasBasename(init, name) by {
        var i :| 0 <= i < |files| && Basename(files[i]) == name;
        assert init[i] == files[i];
      }
      var q := LastWithBasename(init, name);
      assert exists i :: 0 <= i < |files| && files[i] == q && NoLaterBasename(files, name, i) by {
        var i :| 0 <= i < |init| && init[i] == q && NoLaterBasename(init, name, i);
        NoLaterBasenameSnoc(files, name, i);
        assert files[i] == q;
      }
      q
  }

  /** The basenames `compare_directories` finds in both directories. */
  function MatchedNames(dir1: string, dir2: string, names1: seq<string>, names2: seq<string>): seq<string>
  {
    CommonNames(Basenames(ListIrFiles(dir1, names1)), Basenames(ListIrFiles(dir2, names2)))
  }

  /** File name of the page for a matched basename inside an output dir. */
  function MatchPageName(name: string): string
  {
    DiffPrefix + name + HtmlSuffix
  }

  /** Some listed path has basename `name`. */
  predicate HasBasename(files: seq<string>, name: string)
  {
    exists i :: 0 <= i < |files| && Basename(files[i]) == name
  }

  lemma InBasenames(files: seq<string>, name: string)
    requires name in Basenames(files)
    ensures HasBasename(files, name)
  {
    var i :| 0 <= i < |files| && Basenames(files)[i] == name;
  }

  /** The `generate_html_diff` call of one iteration of the comparison loop:
      the paths the two dicts hold for `name`, and the page
      "comparison_<name>.html" inside a given output directory, else no
      output path. */
  function MatchCall(files1: seq<string>, files2: seq<string>, name: string, outputDir: Option<string>)
    : (c: DiffCall)
    requires HasBasename(files1, name) && HasBasename(files2, name)
    ensures c.file1 in files1 && Basename(c.file1) == name
    ensures c.file2 in files2 && Basename(c.file2) == name
    ensures Given(outputDir) ==> c.outputPath == Some(Join(outputDir.value, MatchPageName(name)))
    ensures !Given(outputDir) ==> c.outputPath == None
  {
    var outputPath := if Given(outputDir) then Some(Join(outputDir.value, MatchPageName(name))) else None;
    DiffCall(LastWithBasename(files1, name), LastWithBasename(files2, name), outputPath)
  }

  /** One iteration of the comparison loop, for a basename found in both
      listings: the labels, and the path `generate_html_diff` returns for
      that iteration's call. */
  function MatchComparison(dir1: string, dir2: string, files1: seq<string>, files2: seq<string>,
                           name: string, outputDir: Option<string>): (c: Comparison)
    requires HasBasename(files1, name) && HasBasename(files2, name)
    ensures c.label1 == Basename(dir1) + "/" + name && c.label2 == Basename(dir2) + "/" + name
    ensures Given(outputDir) ==> c.path == Join(outputDir.value, MatchPageName(name))
    ensures !Given(outputDir) ==> c.path == DiffFileName(name, name)
  {
    var call := MatchCall(files1, files2, name, outputDir);
    Comparison(Basename(dir1) + "/" + name, Basename(dir2) + "/" + name,
               DiffOutputPath(call.file1, call.file2, call.outputPath))
  }

  /** The comparison loop of `compare_directories` over the matched
      basenames `common`: one comparison each, in order, labelled
      "<dir1 basename>/<name>" and "<dir2 basename>/<name>", whose page is
      "comparison_<name>.html" in the output directory when one is given and
      otherwise the default "comparison_<name>_vs_<name>.html" in the working
      directory. */
  function MatchAll(dir1: string, dir2: string, files1: seq<string>, files2: seq<string>,
                    common: seq<string>, outputDir: Option<string>): (r: seq<Comparison>)
    requires forall k :: 0 <= k < |common| ==> HasBasename(files1, common[k]) && HasBasename(files2, common[k])
    ensures |r| == |common|
    ensures forall k :: 0 <= k < |r| ==>
      && r[k].label1 == Basename(dir1) + "/" + common[k]
      && r[k].label2 == Basename(dir2) + "/" + common[k]
    ensures forall k :: 0 <= k < |r| && Given(outputDir) ==>
      r[k].path == Join(outputDir.value, MatchPageName(common[k]))
    ensures forall k :: 0 <= k < |r| && !Given(outputDir) ==>
      r[k].path == DiffFileName(common[k], common[k])
  {
    seq(|common|, k requires 0 <= k < |common| =>
          MatchComparison(dir1, dir2, files1, files2, common[k], outputDir))
  }

  /** The same loop over the two lists of IR paths; an empty match gives no
      comparisons. */
  function CompareFiles(dir1: string, dir2: string, files1: seq<string>, files2: seq<string>,
                        outputDir: Option<string>): (r: seq<Comparison>)
    ensures var common := CommonNames(Basenames(files1), Basenames(files2));
      && |r| == |common|
      && (forall k :: 0 <= k < |r| ==>
            && r[k].label1 == Basename(dir1) + "/" + common[k]
            && r[k].label2 == Basename(dir2) + "/" + common[k])
      && (forall k :: 0 <= k < |r| && Given(outputDir) ==>
            r[k].path == Join(outputDir.value, MatchPageName(common[k])))
      && (forall k :: 0 <= k < |r| && !Given(outputDir) ==>
            r[k].path == DiffFileName(common[k], common[k]))
  {
    var common := CommonNames(Basenames(files1), Basenames(files2));
    CommonHaveBasenames(files1, files2);
    if |common| == 0 then []
    else MatchAll(dir1, dir2, files1, files2, common, outputDir)
  }

  /** Every matched basename can be looked up in both lists. */
  lemma CommonHaveBasenames(files1: seq<string>, files2: seq<string>)
    ensures var common := CommonNames(Basenames(files1), Basenames(files2));
      forall k :: 0 <= k < |common| ==> HasBasename(files1, common[k]) && HasBasename(files2, common[k])
  {
    var common := CommonNames(Basenames(files1), Basenames(files2));
    forall k | 0 <= k < |common|
      ensures HasBasename(files1, common[k]) && HasBasename(files2, common[k])
    {
      InBasenames(files1, common[k]);
      InBasenames(files2, common[k]);
    }
  }

  /** `compare_directories(dir1, dir2, output_dir)` with the two listings
      given: the comparison loop over the IR files of each directory. */
  function CompareDirectories(dir1: string, dir2: string, names1: seq<string>, names2: seq<string>,
                              outputDir: Option<string>): (r: seq<Comparison>)
    ensures var common := MatchedNames(dir1, dir2, names1, names2);
      && |r| == |common|
      && (forall k :: 0 <= k < |r| ==>
            && r[k].label1 == Basename(dir1) + "/" + common[k]
            && r[k].label2 == Basename(dir2) + "/" + common[k])
      && (forall k :: 0 <= k < |r| && Given(outputDir) ==>
            r[k].path == Join(outputDir.value, MatchPageName(common[k])))
      && (forall k :: 0 <= k < |r| && !Given(outputDir) ==>
            r[k].path == DiffFileName(common[k], common[k]))
  {
    CompareFiles(dir1, dir2, ListIrFiles(dir1, names1), ListIrFiles(dir2, names2), outputDir)
  }

  /** For entry names (no '/'), the directory mode matches exactly the
      IR entries listed in both directories. */
  lemma MatchedNamesIff(dir1: string, dir2: string, names1: seq<string>, names2: seq<string>, name: string)
    requires forall i :: 0 <= i < |names1| ==> '/' !in names1[i]
    requires forall i :: 0 <= i < |names2| ==> '/' !in names2[i]
    ensures name in MatchedNames(dir1, dir2, names1, names2) <==> name in names1 && name in names2 && IsIrName(name)
  {
    var bases1 := Basenames(ListIrFiles(dir1, names1));
    var bases2 := Basenames(ListIrFiles(dir2, names2));
    ListedBasenames(dir1, names1);
    ListedBasenames(dir2, names2);
    FilterMembers(names1, IsIrName);
    FilterMembers(names2, IsIrName);
    var common := CommonNames(bases1, bases2);
    if name in common {
      var k :| 0 <= k < |common| && common[k] == name;
      assert name in bases1 && name in bases2;
    }
    if name in names1 && name in names2 && IsIrName(name) {
      var i :| 0 <= i < |names1| && names1[i] == name;
      var j :| 0 <= j < |names2| && names2[j] == name;
      assert name in bases1 && name in bases2;
      var p :| 0 <= p < |bases1| && bases1[p] == name;
    }
  }

  /** The `generate_html_diff` calls of the comparison loop over the
      matched basenames `common`, in loop order. */
  function MatchCalls(files1: seq<string>, files2: seq<string>, common: seq<string>, outputDir: Option<string>)
    : (r: seq<DiffCall>)
    requires forall k :: 0 <= k < |common| ==> HasBasename(files1, common[k]) && HasBasename(files2, common[k])
    ensures |r| == |common|
    ensures forall k :: 0 <= k < |r| ==>
      Basename(r[k].file1) == common[k] && Basename(r[k].file2) == common[k]
    ensures forall k :: 0 <= k < |r| && Given(outputDir) ==>
      r[k].outputPath == Some(Join(outputDir.value, MatchPageName(common[k])))
    ensures forall k :: 0 <= k < |r| && !Given(outputDir) ==> r[k].outputPath == None
  {
    seq(|common|, k requires 0 <= k < |common| => MatchCall(files1, files2, common[k], outputDir))
  }

  /** The `generate_html_diff` calls `compare_directories` makes, one per
      matched basename, in loop order. */
  function DirectoryCalls(dir1: string, dir2: string, names1: seq<string>, names2: seq<string>,
                          outputDir: Option<string>): (r: seq<DiffCall>)
    ensures var common := MatchedNames(dir1, dir2, names1, names2);
      && |r| == |common|
      && (forall k :: 0 <= k < |r| ==>
            Basename(r[k].file1) == common[k] && Basename(r[k].file2) == common[k])
      && (forall k :: 0 <= k < |r| && Given(outputDir) ==>
            r[k].outputPath == Some(Join(outputDir.value, MatchPageName(common[k]))))
      && (forall k :: 0 <= k < |r| && !Given(outputDir) ==> r[k].outputPath == None)
  {
    CommonHaveBasenames(ListIrFiles(dir1, names1), ListIrFiles(dir2, names2));
    MatchCalls(ListIrFiles(dir1, names1), ListIrFiles(dir2, names2), MatchedNames(dir1, dir2, names1, names2), outputDir)
  }

  /** A listed path is its entry joined onto the directory, so for entry
      names the only listed path with basename `name` is `dir/name`. */
  lemma ListedWithBasename(dir: string, names: seq<string>, p: string)
    requires forall i :: 0 <= i < |names| ==> '/' !in names[i]
    requires p in ListIrFiles(dir, names)
    ensures p == Join(dir, Basename(p))
  {
    var files := ListIrFiles(dir, names);
    var kept := Filter(names, IsIrName);
    ListedBasenames(dir, names);
    var i :| 0 <= i < |files| && files[i] == p;
    assert Basenames(files)[i] == kept[i];
  }

  /** For entry names, the page for a matched basename `name` diffs
      `dir1/name` against `dir2/name`. */
  lemma DirectoryCallsFiles(dir1: string, dir2: string, names1: seq<string>, names2: seq<string>,
                            outputDir: Option<string>)
    requires forall i :: 0 <= i < |names1| ==> '/' !in names1[i]
    requires forall i :: 0 <= i < |names2| ==> '/' !in names2[i]
    ensures var calls := DirectoryCalls(dir1, dir2, names1, names2, outputDir);
      var common := MatchedNames(dir1, dir2, names1, names2);
      forall k :: 0 <= k < |calls| ==>
        calls[k].file1 == Join(dir1, common[k]) && calls[k].file2 == Join(dir2, common[k])
  {
    var calls := DirectoryCalls(dir1, dir2, names1, names2, outputDir);
    forall k | 0 <= k < |calls|
      ensures calls[k].file1 == Join(dir1, MatchedNames(dir1, dir2, names1, names2)[k])
      ensures calls[k].file2 == Join(dir2, MatchedNames(dir1, dir2, names1, names2)[k])
    {
      ListedWithBasename(dir1, names1, calls[k].file1);
      ListedWithBasename(dir2, names2, calls[k].file2);
    }
  }

  /** Each comparison `compare_directories` records carries the path that
      `generate_html_diff` returns for the matching call. */
  lemma DirectoryCallsPages(dir1: string, dir2: string, names1: seq<string>, names2: seq<string>,
                            outputDir: Option<string>)
    ensures var calls := DirectoryCalls(dir1, dir2, names1, names2, outputDir);
      var cs := CompareDirectories(dir1, dir2, names1, names2, outputDir);
      && |cs| == |calls|
      && forall k :: 0 <= k < |cs| ==>
           cs[k].path == DiffOutputPath(calls[k].file1, calls[k].file2, calls[k].outputPath)
  {
    var calls := DirectoryCalls(dir1, dir2, names1, names2, outputDir);
    var cs := CompareDirectories(dir1, dir2, names1, names2, outputDir);
    forall k | 0 <= k < |cs|
      ensures cs[k].path == DiffOutputPath(calls[k].file1, calls[k].file2, calls[k].outputPath)
    {
      var name := MatchedNames(dir1, dir2, names1, names2)[k];
      if !Given(outputDir) {
        BasenameOfPlainName(name);
      }
    }
  }
}

=== FILE: naming.dfy ===
/** Output naming shared by both batch modes: the comparison record handed
    to the index page, the truthiness of an optional output directory, and
    the default file names of diff pages and of the index page. */
module Naming {
  import opened Wrappers
  import opened Paths

  /** What the batch modes collect per diff: two display labels and the
      path of the written diff page. */
  datatype Comparison = Comparison(label1: string, label2: string, path: string)

  /** Python's `if output_dir:` on an optional string: neither `None` nor "". */
  predicate Given(dir: Option<string>)
  {
    dir.Some? && dir.value != ""
  }

  const DiffPrefix: string := "comparison_"
  const DiffSeparator: string := "_vs_"
  const HtmlSuffix: string := ".html"

  /** File name of the diff page for two entries: "comparison_<a>_vs_<b>.html". */
  function DiffFileName(name1: string, name2: string): string
  {
    DiffPrefix + name1 + DiffSeparator + name2 + HtmlSuffix
  }

  /** Both names can be read back from a diff file name at fixed offsets from
      its two ends, and two '/'-free names give a '/'-free file name. */
  lemma DiffFileNameParts(name1: string, name2: string)
    ensures var r := DiffFileName(name1, name2);
      && |r| == |DiffPrefix| + |name1| + |DiffSeparator| + |name2| + |HtmlSuffix|
      && r[..|DiffPrefix|] == DiffPrefix
      && r[|DiffPrefix|..|DiffPrefix| + |name1|] == name1
      && r[|DiffPrefix| + |name1|..|DiffPrefix| + |name1| + |DiffSeparator|] == DiffSeparator
      && r[|r| - |HtmlSuffix|..] == HtmlSuffix
      && r[|r| - |HtmlSuffix| - |name2|..|r| - |HtmlSuffix|] == name2
    ensures '/' !in name1 && '/' !in name2 ==> '/' !in DiffFileName(name1, name2)
  {
    var r := DiffFileName(name1, name2);
    var a := DiffPrefix + name1;
    var b := a + DiffSeparator + name2;
    assert r == b + HtmlSuffix;
    assert r[..|DiffPrefix|] == a[..|DiffPrefix|];
    assert r[|DiffPrefix|..|a|] == a[|DiffPrefix|..];
    assert r[|a|..|a| + |DiffSeparator|] == (a + DiffSeparator)[|a|..];
    assert r[|b|..] == HtmlSuffix;
    assert r[|b| - |name2|..|b|] == b[|b| - |name2|..];
  }

  /** The arguments of one `generate_html_diff` call: the two files to
      diff and the optional output path. */
  datatype DiffCall = DiffCall(file1: string, file2: string, outputPath: Option<string>)

  /** Path that `generate_html_diff` writes to and returns: the caller's path
      when one is passed (tested with `is None`, so "" is kept), otherwise a
      bare file name in the working directory: "comparison_", the first
      basename, "_vs_", the second basename and ".html", in that order. */
  function DiffOutputPath(file1: string, file2: string, outputPath: Option<string>): (r: string)
    ensures outputPath.Some? ==> r == outputPath.value
    ensures outputPath.None? ==> '/' !in r
    ensures outputPath.None? ==>
      && |r| == |DiffPrefix| + |Basename(file1)| + |DiffSeparator| + |Basename(file2)| + |HtmlSuffix|
      && r[..|DiffPrefix|] == DiffPrefix
      && r[|DiffPrefix|..|DiffPrefix| + |Basename(file1)|] == Basename(file1)
      && r[|DiffPrefix| + |Basename(file1)|..|DiffPrefix| + |Basename(file1)| + |DiffSeparator|] == DiffSeparator
      && r[|r| - |HtmlSuffix|..] == HtmlSuffix
      && r[|r| - |HtmlSuffix| - |Basename(file2)|..|r| - |HtmlSuffix|] == Basename(file2)
  {
    match outputPath
    case Some(p) => p
    case None =>
      DiffFileNameParts(Basename(file1), Basename(file2));
      DiffFileName(Basename(file1), Basename(file2))
  }

  /** A '/'-free path is its own basename. */
  lemma BasenameOfPlainName(name: string)
    requires '/' !in name
    ensures Basename(name) == name
  {
    BasenameAfterSeparator("", name);
    assert "" + name == name;
  }

  const IndexFileName: string := "index.html"
  const DefaultIndexPath: string := "ir_comparisons_index.html"

  /** Where `generate_index_html` writes the index page: "index.html" inside
      a given output directory, otherwise a fixed name in the working
      directory. */
  function IndexPath(outputDir: Option<string>): (r: string)
    ensures Given(outputDir) ==> Basename(r) == IndexFileName
    ensures Given(outputDir) ==> |r| >= |outputDir.value| && r[..|outputDir.value|] == outputDir.value
    ensures !Given(outputDir) ==> '/' !in r && r == DefaultIndexPath
  {
    if Given(outputDir) then
      JoinBasename(outputDir.value, IndexFileName);
      Join(outputDir.value, IndexFileName)
    else DefaultIndexPath
  }
}

=== FILE: pairing.dfy ===
/** `generate_all_comparisons`: inside one directory, group the IR files by
    extension and compare every file with each later file of its group. */
module Pairing {
  import opened Wrappers
  import opened Seqs
  import opened Paths
  import opened Naming
  import opened Listing

  /** One entry of a dict of lists filled by a loop: a key and the items
      filed under it, in list order. */
  datatype Group<K, T> = Group(key: K, items: seq<T>)

  /** The dict's keys, in insertion order. */
  function Keys<K, T>(gs: seq<Group<K, T>>): (r: seq<K>)
    ensures |r| == |gs|
    ensures forall i :: 0 <= i < |gs| ==> r[i] == gs[i].key
  {
    seq(|gs|, i requires 0 <= i < |gs| => gs[i].key)
  }

  /** The key of each item, in list order. */
  function KeysOf<K, T>(xs: seq<T>, key: T -> K): (r: seq<K>)
    ensures |r| == |xs|
    ensures forall i :: 0 <= i < |xs| ==> r[i] == key(xs[i])
  {
    seq(|xs|, i requires 0 <= i < |xs| => key(xs[i]))
  }

  /** The test `key(x) == k` as a function value. */
  function HasKey<K(==), T>(key: T -> K, k: K): T -> bool
  {
    x => key(x) == k
  }

  /** One iteration of the grouping loop: append `x` to the list under `k`,
      opening that list at the end when `k` is new. A dict holds each key
      once, hence the requirement. */
  function AddItem<K(==), T>(gs: seq<Group<K, T>>, k: K, x: T): (r: seq<Group<K, T>>)
    requires Distinct(Keys(gs))
    ensures k in Keys(gs) ==> Keys(r) == Keys(gs)
    ensures k !in Keys(gs) ==> Keys(r) == Keys(gs) + [k]
    ensures forall i :: 0 <= i < |gs| ==>
      r[i].items == gs[i].items + (if gs[i].key == k then [x] else [])
    ensures k !in Keys(gs) ==> r[|gs|].items == [x]
  {
    var keys := Keys(gs);
    if k in keys then
      var i := FirstIndex(keys, k);
      gs[i := Group(k, gs[i].items + [x])]
    else gs + [Group(k, [x])]
  }

  /** The loop `for x in xs: groups.setdefault(key(x), []).append(x)`. */
  function GroupBy<K(==), T>(xs: seq<T>, key: T -> K): (gs: seq<Group<K, T>>)
    ensures Keys(gs) == Dedup(KeysOf(xs, key))
  {
    if |xs| == 0 then []
    else
      var n := |xs| - 1;
      assert KeysOf(xs, key) == KeysOf(xs[..n], key) + [key(xs[n])];
      AddItem(GroupBy(xs[..n], key), key(xs[n]), xs[n])
  }

  /** No item has a key outside the dict. */
  lemma NoneFiled<K, T>(xs: seq<T>, key: T -> K, k: K)
    requires k !in Dedup(KeysOf(xs, key))
    ensures Filter(xs, HasKey(key, k)) == []
  {
    forall m | 0 <= m < |xs|
      ensures !HasKey(key, k)(xs[m])
    {
      assert KeysOf(xs, key)[m] in Dedup(KeysOf(xs, key));
    }
    FilterNone(xs, HasKey(key, k));
  }

  /** Filing `x` into groups that hold the filters of `init` by their keys
      gives groups that hold the filters of `init + [x]`. */
  lemma AddItemFilters<K, T>(gs0: seq<Group<K, T>>, init: seq<T>, x: T, key: T -> K, i: nat)
    requires Keys(gs0) == Dedup(KeysOf(init, key))
    requires forall j :: 0 <= j < |gs0| ==> gs0[j].items == Filter(init, HasKey(key, gs0[j].key))
    requires i < |AddItem(gs0, key(x), x)|
    ensures AddItem(gs0, key(x), x)[i].items == Filter(init + [x], HasKey(key, AddItem(gs0, key(x), x)[i].key))
  {
    var gs := AddItem(gs0, key(x), x);
    var keep := HasKey(key, gs[i].key);
    assert keep(x) <==> key(x) == gs[i].key;
    FilterAppend(init, [x], keep);
    FilterSingle(x, keep);
    if i < |gs0| {
      assert gs[i].key == Keys(gs)[i] == Keys(gs0)[i] == gs0[i].key;
      assert gs[i].items == gs0[i].items + Filter([x], keep);
    } else {
      assert gs[i].key == key(x);
      NoneFiled(init, key, key(x));
      assert gs[i].items == [x] == Filter(init, keep) + Filter([x], keep);
    }
  }

  /** One step of the grouping loop keeps each group equal to the filter of
      the items seen so far by its key. */
  lemma GroupItemsStep<K, T>(init: seq<T>, x: T, key: T -> K, i: nat)
    requires forall j :: 0 <= j < |GroupBy(init, key)| ==>
      GroupBy(init, key)[j].items == Filter(init, HasKey(key, GroupBy(init, key)[j].key))
    requires i < |GroupBy(init + [x], key)|
    ensures GroupBy(init + [x], key)[i].items == Filter(init + [x], HasKey(key, GroupBy(init + [x], key)[i].key))
  {
    var xs := init + [x];
    assert xs[..|xs| - 1] == init;
    assert GroupBy(xs, key) == AddItem(GroupBy(init, key), key(x), x);
    AddItemFilters(GroupBy(init, key), init, x, key, i);
  }

  /** Each group holds exactly the items with its key, in list order. */
  lemma {:induction false} GroupItems<K, T>(xs: seq<T>, key: T -> K)
    ensures forall i :: 0 <= i < |GroupBy(xs, key)| ==>
      GroupBy(xs, key)[i].items == Filter(xs, HasKey(key, GroupBy(xs, key)[i].key))
    decreases |xs|
  {
    if |xs| > 0 {
      var n := |xs| - 1;
      assert xs == xs[..n] + [xs[n]];
      GroupItems(xs[..n], key);
      forall i | 0 <= i < |GroupBy(xs, key)|
        ensures GroupBy(xs, key)[i].items == Filter(xs, HasKey(key, GroupBy(xs, key)[i].key))
      {
        GroupItemsStep(xs[..n], xs[n], key, i);
      }
    }
  }


  /** The nested loops `for i in range(len(xs)): for j in range(i + 1,
      len(xs))` over one list: each item paired with every later item, in
      loop order. */
  function PairsWithin<T>(xs: seq<T>): seq<(T, T)>
  {
    if |xs| == 0 then []
    else seq(|xs| - 1, k requires 0 <= k < |xs| - 1 => (xs[0], xs[k + 1])) + PairsWithin(xs[1..])
  }

  /** A list of n items gives n * (n - 1) / 2 pairs. */
  lemma {:induction false} PairsWithinCount<T>(xs: seq<T>)
    ensures 2 * |PairsWithin(xs)| == |xs| * (|xs| - 1)
    decreases |xs|
  {
    if |xs| > 0 {
      var n := |xs|;
      PairsWithinCount(xs[1..]);
      assert n * (n - 1) == (n - 1) * (n - 2) + 2 * (n - 1);
    }
  }

  /** The pairs are exactly the items in list order: `(a, b)` is produced
      when and only when `a` occurs before `b`. */
  lemma {:induction false} PairsWithinIff<T>(xs: seq<T>, a: T, b: T)
    ensures (a, b) in PairsWithin(xs) <==> Before(xs, a, b)
    decreases |xs|
  {
    if |xs| > 0 {
      var tail := xs[1..];
      var head := seq(|xs| - 1, k requires 0 <= k < |xs| - 1 => (xs[0], xs[k + 1]));
      var rest := PairsWithin(tail);
      assert PairsWithin(xs) == head + rest;
      PairsWithinIff(tail, a, b);
      if (a, b) in head {
        var k :| 0 <= k < |head| && head[k] == (a, b);
        assert xs[0] == a && xs[k + 1] == b;
      }
      if Before(tail, a, b) {
        var i, j :| 0 <= i < j < |tail| && tail[i] == a && tail[j] == b;
        assert xs[i + 1] == a && xs[j + 1] == b;
      }
      if Before(xs, a, b) {
        var i, j :| 0 <= i < j < |xs| && xs[i] == a && xs[j] == b;
        if i == 0 {
          assert head[j - 1] == (a, b);
        } else {
          assert tail[i - 1] == a && tail[j - 1] == b;
        }
      }
    }
  }

  /** The outer loop over the groups: the pairs of each group, group by
      group. */
  function AllPairs<K, T>(gs: seq<Group<K, T>>): seq<(T, T)>
  {
    if |gs| == 0 then [] else PairsWithin(gs[0].items) + AllPairs(gs[1..])
  }

  lemma {:induction false} AllPairsIff<K, T>(gs: seq<Group<K, T>>, a: T, b: T)
    ensures (a, b) in AllPairs(gs) <==> exists i :: 0 <= i < |gs| && (a, b) in PairsWithin(gs[i].items)
    decreases |gs|
  {
    if |gs| > 0 {
      AllPairsIff(gs[1..], a, b);
      if exists i :: 0 <= i < |gs[1..]| && (a, b) in PairsWithin(gs[1..][i].items) {
        var i :| 0 <= i < |gs[1..]| && (a, b) in PairsWithin(gs[1..][i].items);
        assert gs[1..][i] == gs[i + 1];
      }
      if exists i :: 0 <= i < |gs| && (a, b) in PairsWithin(gs[i].items) {
        var i :| 0 <= i < |gs| && (a, b) in PairsWithin(gs[i].items);
        if i > 0 {
          assert gs[1..][i - 1] == gs[i];
        }
      }
    }
  }

  /** A pair from the groups is two items of one key in list order. */
  lemma GroupPairsSound<K, T>(xs: seq<T>, key: T -> K, a: T, b: T)
    requires (a, b) in AllPairs(GroupBy(xs, key))
    ensures Before(xs, a, b) && key(a) == key(b)
  {
    var gs := GroupBy(xs, key);
    AllPairsIff(gs, a, b);
    var i :| 0 <= i < |gs| && (a, b) in PairsWithin(gs[i].items);
    GroupItems(xs, key);
    var keep := HasKey(key, gs[i].key);
    assert gs[i].items == Filter(xs, keep);
    PairsWithinIff(gs[i].items, a, b);
    FilterBefore(xs, keep, a, b);
  }

  /** Two items of one key in list order are paired by their group. */
  lemma GroupPairsComplete<K, T>(xs: seq<T>, key: T -> K, a: T, b: T)
    requires Before(xs, a, b) && key(a) == key(b)
    ensures (a, b) in AllPairs(GroupBy(xs, key))
  {
    var gs := GroupBy(xs, key);
    var p, q :| 0 <= p < q < |xs| && xs[p] == a && xs[q] == b;
    assert KeysOf(xs, key)[p] in Dedup(KeysOf(xs, key));
    var i :| 0 <= i < |gs| && Keys(gs)[i] == key(a);
    GroupItems(xs, key);
    var keep := HasKey(key, gs[i].key);
    assert gs[i].items == Filter(xs, keep);
    FilterBefore(xs, keep, a, b);
    PairsWithinIff(gs[i].items, a, b);
    AllPairsIff(gs, a, b);
  }

  /** Grouping then pairing compares exactly the items in list order that
      share a key. */
  lemma GroupPairsIff<K, T>(xs: seq<T>, key: T -> K, a: T, b: T)
    ensures (a, b) in AllPairs(GroupBy(xs, key)) <==> Before(xs, a, b) && key(a) == key(b)
  {
    if (a, b) in AllPairs(GroupBy(xs, key)) {
      GroupPairsSound(xs, key, a, b);
    }
    if Before(xs, a, b) && key(a) == key(b) {
      GroupPairsComplete(xs, key, a, b);
    }
  }

  /** Over a list without repeats no item is compared with itself and no
      pair is compared twice, in either order. */
  lemma GroupPairsOnce<K, T>(xs: seq<T>, key: T -> K, a: T, b: T)
    requires Distinct(xs)
    requires (a, b) in AllPairs(GroupBy(xs, key))
    ensures a != b && (b, a) !in AllPairs(GroupBy(xs, key))
  {
    GroupPairsIff(xs, key, a, b);
    GroupPairsIff(xs, key, b, a);
  }


  /** Over a list without repeats, the nested loops produce no pair twice. */
  lemma {:induction false} PairsWithinDistinct<T>(xs: seq<T>)
    requires Distinct(xs)
    ensures Distinct(PairsWithin(xs))
    decreases |xs|
  {
    if |xs| > 0 {
      var tail := xs[1..];
      var head := seq(|xs| - 1, k requires 0 <= k < |xs| - 1 => (xs[0], xs[k + 1]));
      var rest := PairsWithin(tail);
      assert PairsWithin(xs) == head + rest;
      assert Distinct(tail) by {
        forall i, j | 0 <= i < j < |tail|
          ensures tail[i] != tail[j]
        {
          assert tail[i] == xs[i + 1] && tail[j] == xs[j + 1];
        }
      }
      PairsWithinDistinct(tail);
      assert Distinct(head) by {
        forall i, j | 0 <= i < j < |head|
          ensures head[i] != head[j]
        {
          assert head[i].1 == xs[i + 1] && head[j].1 == xs[j + 1];
        }
      }
      forall i, j | 0 <= i < |head| && 0 <= j < |rest|
        ensures head[i] != rest[j]
      {
        PairsWithinIff(tail, rest[j].0, rest[j].1);
        var p, q :| 0 <= p < q < |tail| && tail[p] == rest[j].0 && tail[q] == rest[j].1;
        assert tail[p] == xs[p + 1] != xs[0];
      }
      DistinctAppend(head, rest);
    }
  }

  /** A pair produced within a list starts with an item of that list. */
  lemma PairWithinStarts<T>(xs: seq<T>, a: T, b: T)
    requires (a, b) in PairsWithin(xs)
    ensures a in xs
  {
    PairsWithinIff(xs, a, b);
  }

  /** Groups whose items carry their group's key, with distinct keys and no
      repeated items, produce no pair twice. */
  lemma {:induction false} AllPairsDistinct<K, T>(gs: seq<Group<K, T>>, key: T -> K)
    requires Distinct(Keys(gs))
    requires forall i :: 0 <= i < |gs| ==> Distinct(gs[i].items)
    requires forall i, k :: 0 <= i < |gs| && 0 <= k < |gs[i].items| ==> key(gs[i].items[k]) == gs[i].key
    ensures Distinct(AllPairs(gs))
    decreases |gs|
  {
    if |gs| > 0 {
      var tail := gs[1..];
      assert Distinct(Keys(tail)) by {
        forall i, j | 0 <= i < j < |tail|
          ensures Keys(tail)[i] != Keys(tail)[j]
        {
          assert Keys(tail)[i] == Keys(gs)[i + 1] && Keys(tail)[j] == Keys(gs)[j + 1];
        }
      }
      forall i, k | 0 <= i < |tail| && 0 <= k < |tail[i].items|
        ensures key(tail[i].items[k]) == tail[i].key
      {
        assert tail[i] == gs[i + 1];
      }
      forall i | 0 <= i < |tail|
        ensures Distinct(tail[i].items)
      {
        assert tail[i] == gs[i + 1];
      }
      AllPairsDistinct(tail, key);
      var first := PairsWithin(gs[0].items);
      var rest := AllPairs(tail);
      PairsWithinDistinct(gs[0].items);
      forall i, j | 0 <= i < |first| && 0 <= j < |rest|
        ensures first[i] != rest[j]
      {
        var (a, b) := rest[j];
        AllPairsIff(tail, a, b);
        var g :| 0 <= g < |tail| && (a, b) in PairsWithin(tail[g].items);
        PairWithinStarts(tail[g].items, a, b);
        assert key(a) == gs[g + 1].key by {
          var k :| 0 <= k < |tail[g].items| && tail[g].items[k] == a;
          assert tail[g] == gs[g + 1];
        }
        var (c, d) := first[i];
        PairWithinStarts(gs[0].items, c, d);
        assert key(c) == gs[0].key by {
          var k :| 0 <= k < |gs[0].items| && gs[0].items[k] == c;
        }
        assert Keys(gs)[0] != Keys(gs)[g + 1];
      }
      DistinctAppend(first, rest);
    }
  }

  /** Over a list without repeats, grouping then pairing produces no pair
      twice: each pair of one extension is compared exactly once. */
  lemma GroupPairsDistinct<K, T>(xs: seq<T>, key: T -> K)
    requires Distinct(xs)
    ensures Distinct(AllPairs(GroupBy(xs, key)))
  {
    var gs := GroupBy(xs, key);
    GroupItems(xs, key);
    forall i | 0 <= i < |gs|
      ensures Distinct(gs[i].items)
    {
      FilterDistinct(xs, HasKey(key, gs[i].key));
    }
    forall i, k | 0 <= i < |gs| && 0 <= k < |gs[i].items|
      ensures key(gs[i].items[k]) == gs[i].key
    {
      assert HasKey(key, gs[i].key)(gs[i].items[k]);
    }
    AllPairsDistinct(gs, key);
  }

  /** The sum, over the keys `ks`, of n * (n - 1) where n is the number of
      items with that key. */
  function SameKeyPairs<K(==), T>(xs: seq<T>, key: T -> K, ks: seq<K>): nat
    decreases |ks|
  {
    if |ks| == 0 then 0
    else
      var n := |Filter(xs, HasKey(key, ks[0]))|;
      n * (n - 1) + SameKeyPairs(xs, key, ks[1..])
  }

  /** Groups holding the items of their keys give n * (n - 1) / 2 pairs per
      key. */
  lemma {:induction false} AllPairsCount<K, T>(xs: seq<T>, key: T -> K, gs: seq<Group<K, T>>)
    requires forall i :: 0 <= i < |gs| ==> gs[i].items == Filter(xs, HasKey(key, gs[i].key))
    ensures 2 * |AllPairs(gs)| == SameKeyPairs(xs, key, Keys(gs))
    decreases |gs|
  {
    if |gs| > 0 {
      var tail := gs[1..];
      forall i | 0 <= i < |tail|
        ensures tail[i].items == Filter(xs, HasKey(key, tail[i].key))
      {
        assert tail[i] == gs[i + 1];
      }
      AllPairsCount(xs, key, tail);
      PairsWithinCount(gs[0].items);
      assert Keys(gs)[1..] == Keys(tail);
    }
  }

  /** The number of comparisons: for every extension present, with n files
      of it, n * (n - 1) / 2 pairs. */
  lemma GroupPairsCount<K, T>(xs: seq<T>, key: T -> K)
    ensures 2 * |AllPairs(GroupBy(xs, key))| == SameKeyPairs(xs, key, Dedup(KeysOf(xs, key)))
  {
    GroupItems(xs, key);
    AllPairsCount(xs, key, GroupBy(xs, key));
  }

  /** The body of the inner loop for one pair of paths: both labelled by
      basename, the page named "comparison_<name1>_vs_<name2>.html" inside
      the output directory when one is given, and otherwise left to
      `generate_html_diff`, which picks the same name in the working
      directory. Either way the page's own name is that file name. */
  function PairComparison(file1: string, file2: string, outputDir: Option<string>): (c: Comparison)
    ensures c.label1 == Basename(file1) && c.label2 == Basename(file2)
    ensures Given(outputDir) ==> c.path == Join(outputDir.value, DiffFileName(c.label1, c.label2))
    ensures !Given(outputDir) ==> c.path == DiffFileName(c.label1, c.label2)
    ensures Basename(c.path) == DiffFileName(c.label1, c.label2)
  {
    var name1 := Basename(file1);
    var name2 := Basename(file2);
    var page := DiffFileName(name1, name2);
    DiffFileNameParts(name1, name2);
    if Given(outputDir) then
      JoinBasename(outputDir.value, page);
      Comparison(name1, name2, DiffOutputPath(file1, file2, Some(Join(outputDir.value, page))))
    else
      BasenameOfPlainName(page);
      Comparison(name1, name2, DiffOutputPath(file1, file2, None))
  }

  /** The comparisons for a list of pairs, in order: each labelled by its
      pair's basenames, its page "comparison_<label1>_vs_<label2>.html"
      inside a given output directory, else in the working directory. */
  function ComparePairs(pairs: seq<(string, string)>, outputDir: Option<string>): (r: seq<Comparison>)
    ensures |r| == |pairs|
    ensures forall k :: 0 <= k < |r| ==>
      && r[k].label1 == Basename(pairs[k].0)
      && r[k].label2 == Basename(pairs[k].1)
      && Basename(r[k].path) == DiffFileName(r[k].label1, r[k].label2)
    ensures forall k :: 0 <= k < |r| && Given(outputDir) ==>
      r[k].path == Join(outputDir.value, DiffFileName(r[k].label1, r[k].label2))
    ensures forall k :: 0 <= k < |r| && !Given(outputDir) ==>
      r[k].path == DiffFileName(r[k].label1, r[k].label2)
  {
    seq(|pairs|, k requires 0 <= k < |pairs| => PairComparison(pairs[k].0, pairs[k].1, outputDir))
  }

  /** A pair in the list yields a comparison labelled by its basenames. */
  lemma ComparePairsHas(pairs: seq<(string, string)>, outputDir: Option<string>, f1: string, f2: string)
    requires (f1, f2) in pairs
    ensures exists k :: 0 <= k < |ComparePairs(pairs, outputDir)|
                        && ComparePairs(pairs, outputDir)[k].label1 == Basename(f1)
                        && ComparePairs(pairs, outputDir)[k].label2 == Basename(f2)
  {
    var k :| 0 <= k < |pairs| && pairs[k] == (f1, f2);
    assert ComparePairs(pairs, outputDir)[k] == PairComparison(f1, f2, outputDir);
  }

  /** `generate_all_comparisons(directory, output_dir)` with the listing
      given: the IR files grouped by extension, and one comparison for each
      pair of files of a group, in loop order. */
  function GenerateAllComparisons(dir: string, names: seq<string>, outputDir: Option<string>): seq<Comparison>
  {
    ComparePairs(AllPairs(GroupBy(ListIrFiles(dir, names), Ext)), outputDir)
  }


  /** A listing never holds a name twice, so the directory mode compares no
      pair of files twice. */
  lemma GeneratedPairsDistinct(dir: string, names: seq<string>)
    requires forall i :: 0 <= i < |names| ==> '/' !in names[i]
    requires Distinct(names)
    ensures Distinct(AllPairs(GroupBy(ListIrFiles(dir, names), Ext)))
  {
    ListIrFilesDistinct(dir, names);
    GroupPairsDistinct(ListIrFiles(dir, names), Ext);
  }

  /** The directory mode writes, for every extension with n listed IR files,
      n * (n - 1) / 2 comparisons. */
  lemma GenerateAllComparisonsCount(dir: string, names: seq<string>, outputDir: Option<string>)
    ensures var files := ListIrFiles(dir, names);
      2 * |GenerateAllComparisons(dir, names, outputDir)| == SameKeyPairs(files, Ext, Dedup(KeysOf(files, Ext)))
  {
    GroupPairsCount(ListIrFiles(dir, names), Ext);
  }

  /** Every pair the directory mode compares is two listed IR files of one
      extension, in listing order. */
  lemma GeneratedPairListed(dir: string, names: seq<string>, f1: string, f2: string)
    requires forall i :: 0 <= i < |names| ==> '/' !in names[i]
    requires (f1, f2) in AllPairs(GroupBy(ListIrFiles(dir, names), Ext))
    ensures f1 == Join(dir, Basename(f1)) && f2 == Join(dir, Basename(f2))
    ensures Before(names, Basename(f1), Basename(f2))
    ensures IsIrName(Basename(f1)) && IsIrName(Basename(f2))
    ensures Ext(Basename(f1)) == Ext(Basename(f2))
  {
    var files := ListIrFiles(dir, names);
    GroupPairsIff(files, Ext, f1, f2);
    var i, j :| 0 <= i < j < |files| && files[i] == f1 && files[j] == f2;
    var kept := Filter(names, IsIrName);
    FilterMembers(names, IsIrName);
    assert kept[i] in names && kept[j] in names;
    JoinBasename(dir, kept[i]);
    JoinBasename(dir, kept[j]);
    ListedBefore(dir, names, kept[i], kept[j]);
    ExtOfJoin(dir, kept[i]);
    ExtOfJoin(dir, kept[j]);
  }

  /** Every two listed IR entries of one extension, in listing order, are
      compared as the paths joined onto the directory. */
  lemma ListedPairGenerated(dir: string, names: seq<string>, a: string, b: string)
    requires forall i :: 0 <= i < |names| ==> '/' !in names[i]
    requires Before(names, a, b) && IsIrName(a) && IsIrName(b) && Ext(a) == Ext(b)
    ensures (Join(dir, a), Join(dir, b)) in AllPairs(GroupBy(ListIrFiles(dir, names), Ext))
  {
    var i, j :| 0 <= i < j < |names| && names[i] == a && names[j] == b;
    ListedBefore(dir, names, a, b);
    ExtOfJoin(dir, a);
    ExtOfJoin(dir, b);
    GroupPairsIff(ListIrFiles(dir, names), Ext, Join(dir, a), Join(dir, b));
  }

  /** The directory mode compares exactly the pairs of listed IR entries
      that share an extension, first entry first in listing order: some
      comparison is labelled (a, b) when and only when a is listed before b,
      both pass the filter, and their extensions agree. */
  lemma GenerateAllComparisonsIff(dir: string, names: seq<string>, outputDir: Option<string>, a: string, b: string)
    requires forall i :: 0 <= i < |names| ==> '/' !in names[i]
    ensures (exists k :: 0 <= k < |GenerateAllComparisons(dir, names, outputDir)|
               && GenerateAllComparisons(dir, names, outputDir)[k].label1 == a
               && GenerateAllComparisons(dir, names, outputDir)[k].label2 == b)
        <==> Before(names, a, b) && IsIrName(a) && IsIrName(b) && Ext(a) == Ext(b)
  {
    var pairs := AllPairs(GroupBy(ListIrFiles(dir, names), Ext));
    var r := GenerateAllComparisons(dir, names, outputDir);
    assert r == ComparePairs(pairs, outputDir);
    if exists k :: 0 <= k < |r| && r[k].label1 == a && r[k].label2 == b {
      var k :| 0 <= k < |r| && r[k].label1 == a && r[k].label2 == b;
      assert pairs[k] in pairs;
      GeneratedPairListed(dir, names, pairs[k].0, pairs[k].1);
    }
    if Before(names, a, b) && IsIrName(a) && IsIrName(b) && Ext(a) == Ext(b) {
      ListedPairGenerated(dir, names, a, b);
      ComparePairsHas(pairs, outputDir, Join(dir, a), Join(dir, b));
      var i, j :| 0 <= i < j < |names| && names[i] == a && names[j] == b;
      assert '/' !in a && '/' !in b;
      JoinBasename(dir, a);
      JoinBasename(dir, b);
    }
  }


  /** A name made of a '/'-free stem not starting with '.' and ".ttir" is a
      ".ttir" IR name. */
  lemma TtirName(stem: string)
    requires |stem| > 0 && stem[0] != '.' && '/' !in stem
    ensures Ext(stem + ".ttir") == ".ttir" && IsIrName(stem + ".ttir")
  {
    var p := stem + ".ttir";
    assert ExtensionShaped(".ttir") by { assert ".ttir"[1..] == "ttir"; }
    ExtIff(p, ".ttir");
    assert p[..|p| - 5] == stem;
    assert p[|p| - 5..] == ".ttir";
    RFindUnique(stem, '/', -1);
    assert HasNonDot(stem, 0, |stem|) by { assert stem[0] != '.'; }
  }

  /** Moving a name across the separator does not change the page name:
      the pairs (a, b_vs_c) and (a_vs_b, c) share one. */
  lemma PageNameShift(a: string, b: string, c: string)
    ensures DiffFileName(a, b + DiffSeparator + c) == DiffFileName(a + DiffSeparator + b, c)
  {
    var pre, sep, post := DiffPrefix, DiffSeparator, HtmlSuffix;
    assert pre + a + sep + (b + sep + c) + post == pre + (a + sep + b) + sep + c + post;
  }

  /** A ".ttir" name, a separator and another ".ttir" name make a ".ttir"
      IR name. */
  lemma JoinedTtirName(x: string, y: string)
    requires |x| > 0 && x[0] != '.' && '/' !in x
    requires '/' !in y
    ensures Ext((x + ".ttir") + DiffSeparator + (y + ".ttir")) == ".ttir"
    ensures IsIrName((x + ".ttir") + DiffSeparator + (y + ".ttir"))
  {
    assert '/' !in DiffSeparator;
    var stem := x + ".ttir" + DiffSeparator + y;
    assert stem[0] == x[0];
    assert (x + ".ttir") + DiffSeparator + (y + ".ttir") == stem + ".ttir";
    TtirName(stem);
  }

  /** Page names of the directory mode are not unique. For any stems p, q
      and r, the pair (p.ttir, q.ttir_vs_r.ttir) and the pair
      (p.ttir_vs_q.ttir, r.ttir) are written to the same page, and all four
      names are ".ttir" IR names, so both pairs are compared whenever the
      listing holds them in that order. */
  lemma PairPagesCollide(p: string, q: string, r: string)
    requires |p| > 0 && p[0] != '.' && '/' !in p
    requires |q| > 0 && q[0] != '.' && '/' !in q
    requires |r| > 0 && r[0] != '.' && '/' !in r
    ensures var a, b, c := p + ".ttir", q + ".ttir", r + ".ttir";
      && Ext(a) == Ext(b + DiffSeparator + c) == Ext(a + DiffSeparator + b) == Ext(c) == ".ttir"
      && IsIrName(a) && IsIrName(b + DiffSeparator + c) && IsIrName(a + DiffSeparator + b) && IsIrName(c)
      && a != a + DiffSeparator + b
      && DiffFileName(a, b + DiffSeparator + c) == DiffFileName(a + DiffSeparator + b, c)
  {
    TtirName(p);
    TtirName(r);
    JoinedTtirName(q, r);
    JoinedTtirName(p, q);
    PageNameShift(p + ".ttir", q + ".ttir", r + ".ttir");
  }
}

=== FILE: paths.dfy ===
/** The slice of Python's `os.path` (POSIX flavour) that the tool relies on:
    `basename`, `join` and the extension half of `splitext`, all on plain
    strings with '/' as the only separator. */
module Paths {

  /** Index of the last `c` in `s`, or -1 when there is none (`str.rfind`). */
  function RFind(s: string, c: char): (r: int)
    ensures -1 <= r < |s|
    ensures 0 <= r ==> s[r] == c
    ensures forall k :: r < k < |s| ==> s[k] != c
  {
    if |s| == 0 then -1
    else if s[|s| - 1] == c then |s| - 1
    else RFind(s[..|s| - 1], c)
  }

  /** The three facts above pin the index down. */
  lemma RFindUnique(s: string, c: char, i: int)
    requires -1 <= i < |s|
    requires 0 <= i ==> s[i] == c
    requires forall k :: i < k < |s| ==> s[k] != c
    ensures RFind(s, c) == i
  {
  }

  /** `os.path.basename`: the text after the last '/'. */
  function Basename(p: string): (r: string)
    ensures '/' !in r
  {
    var i := RFind(p, '/') + 1;
    assert forall k :: 0 <= k < |p[i..]| ==> p[i..][k] == p[i + k];
    p[i..]
  }

  /** The basename is a suffix of the path: the whole path, or the part
      after a '/'. */
  lemma BasenameSuffix(p: string)
    ensures |Basename(p)| <= |p| && p[|p| - |Basename(p)|..] == Basename(p)
    ensures |Basename(p)| == |p| || p[|p| - |Basename(p)| - 1] == '/'
  {
  }

  /** A name behind a prefix that is empty or ends in '/' is its own basename. */
  lemma BasenameAfterSeparator(prefix: string, name: string)
    requires '/' !in name
    requires |prefix| == 0 || prefix[|prefix| - 1] == '/'
    ensures Basename(prefix + name) == name
  {
    var p := prefix + name;
    forall k | |prefix| - 1 < k < |p|
      ensures p[k] != '/'
    {
      assert p[k] == name[k - |prefix|];
    }
    RFindUnique(p, '/', |prefix| - 1);
    assert p[|prefix|..] == name;
  }

  /** `os.path.join(dir, name)`: an absolute `name` wins; otherwise a '/'
      is inserted unless `dir` is empty or already ends in one. */
  function Join(dir: string, name: string): string
  {
    if |name| > 0 && name[0] == '/' then name
    else if |dir| == 0 || dir[|dir| - 1] == '/' then dir + name
    else dir + "/" + name
  }

  /** Joining a plain entry name onto any directory gives a path whose
      basename is that name, below the directory. */
  lemma JoinBasename(dir: string, name: string)
    requires '/' !in name
    ensures Basename(Join(dir, name)) == name
    ensures Join(dir, name)[..|dir|] == dir
  {
    if |dir| == 0 || dir[|dir| - 1] == '/' {
      BasenameAfterSeparator(dir, name);
    } else {
      assert dir + "/" + name == (dir + "/") + name;
      BasenameAfterSeparator(dir + "/", name);
    }
  }

  /** Some character of `s[lo..hi]` is not a dot. */
  predicate HasNonDot(s: string, lo: int, hi: int)
    requires 0 <= lo && hi <= |s|
  {
    exists k :: lo <= k < hi && s[k] != '.'
  }

  /** The extension half of `os.path.splitext(p)`: from the last dot of the
      final path component to the end, provided some non-dot character of
      that component precedes the dot; otherwise empty (so ".ttir" and
      "..ttir" have no extension). */
  function Ext(p: string): (r: string)
    ensures r == "" || (r[0] == '.' && '.' !in r[1..] && '/' !in r)
    ensures |r| <= |p| && p[|p| - |r|..] == r
  {
    var sep := RFind(p, '/');
    var dot := RFind(p, '.');
    if dot > sep && HasNonDot(p, sep + 1, dot) then
      var r := p[dot..];
      assert forall k :: 1 <= k < |r| ==> r[k] == p[dot + k];
      assert forall k :: 0 <= k < |r[1..]| ==> r[1..][k] == r[k + 1];
      r
    else ""
  }

  /** The final path component of `stem` holds a character other than '.'. */
  predicate NamedStem(stem: string)
  {
    HasNonDot(stem, RFind(stem, '/') + 1, |stem|)
  }

  /** A candidate extension: a dot followed by neither dots nor separators. */
  predicate ExtensionShaped(e: string)
  {
    |e| > 0 && e[0] == '.' && '.' !in e[1..] && '/' !in e
  }

  /** Independent description of `Ext`: a path has extension `e` exactly when
      it is some stem followed by `e` and the stem's final component is not
      made of dots alone. */
  lemma {:induction false} ExtIff(p: string, e: string)
    requires ExtensionShaped(e)
    ensures Ext(p) == e <==> |e| <= |p| && p[|p| - |e|..] == e && NamedStem(p[..|p| - |e|])
  {
    if |e| <= |p| && p[|p| - |e|..] == e {
      var n := |p| - |e|;
      var stem := p[..n];
      assert p == stem + e;
      // the last dot of p is the one opening e
      forall k | n < k < |p|
        ensures p[k] != '.' && p[k] != '/'
      {
        assert p[k] == e[k - n];
        assert e[k - n] == e[1..][k - n - 1];
      }
      assert p[n] == '.';
      RFindUnique(p, '.', n);
      // the last separator of p is the last separator of the stem
      var sep := RFind(stem, '/');
      forall k | sep < k < |p|
        ensures p[k] != '/'
      {
        if k < n {
          assert p[k] == stem[k];
        } else {
          assert p[k] == e[k - n];
        }
      }
      assert 0 <= sep ==> p[sep] == stem[sep];
      RFindUnique(p, '/', sep);
      assert NamedStem(stem) <==> HasNonDot(p, sep + 1, n) by {
        assert forall k :: sep + 1 <= k < n ==> p[k] == stem[k];
      }
    }
    if Ext(p) == e {
      var sep := RFind(p, '/');
      var dot := RFind(p, '.');
      assert dot > sep && HasNonDot(p, sep + 1, dot);
      assert p[dot..] == e;
      var stem := p[..dot];
      assert 0 <= sep ==> stem[sep] == p[sep];
      RFindUnique(stem, '/', sep);
      assert forall k :: sep + 1 <= k < dot ==> p[k] == stem[k];
      assert NamedStem(stem);
    }
  }

  /** Last occurrences in a suffix are the last occurrences in the whole,
      shifted. */
  lemma RFindSuffix(p: string, off: nat, c: char)
    requires off <= |p|
    ensures RFind(p[off..], c) == if RFind(p, c) >= off then RFind(p, c) - off else -1
  {
    var b := p[off..];
    var i := if RFind(p, c) >= off then RFind(p, c) - off else -1;
    forall k | i < k < |b|
      ensures b[k] != c
    {
      assert b[k] == p[off + k];
    }
    RFindUnique(b, c, i);
  }

  /** `splitext` looks only at the final component: the extension of a path
      is the extension of its basename. */
  lemma {:induction false} ExtOfBasename(p: string)
    ensures Ext(Basename(p)) == Ext(p)
  {
    var sep := RFind(p, '/');
    var dot := RFind(p, '.');
    var off := sep + 1;
    var b := p[off..];
    assert Basename(p) == b;
    RFindSuffix(p, off, '/');
    RFindSuffix(p, off, '.');
    if dot > sep {
      assert HasNonDot(b, 0, dot - off) == HasNonDot(p, off, dot) by {
        assert forall k :: 0 <= k < dot - off ==> b[k] == p[off + k];
        if HasNonDot(b, 0, dot - off) {
          var k :| 0 <= k < dot - off && b[k] != '.';
          assert p[off + k] != '.';
        }
        if HasNonDot(p, off, dot) {
          var k :| off <= k < dot && p[k] != '.';
          assert b[k - off] != '.';
        }
      }
      assert b[dot - off..] == p[dot..];
    }
  }

  /** Hence `splitext` of a joined path and of the bare entry name agree. */
  lemma ExtOfJoin(dir: string, name: string)
    requires '/' !in name
    ensures Ext(Join(dir, name)) == Ext(name)
  {
    JoinBasename(dir, name);
    ExtOfBasename(Join(dir, name));
    ExtOfBasename(name);
    RFindUnique(name, '/', -1);
    assert Basename(name) == name;
  }

  /** The basename of every path, in order. */
  function Basenames(paths: seq<string>): (r: seq<string>)
    ensures |r| == |paths|
    ensures forall i :: 0 <= i < |r| ==> r[i] == Basename(paths[i])
  {
    seq(|paths|, i requires 0 <= i < |paths| => Basename(paths[i]))
  }
}

=== FILE: report.dfy ===
/** `generate_index_html`: the index page written next to the diff pages of
    either batch mode, and why its links lead to those pages. */
module Report {
  import opened Wrappers
  import opened Paths
  import opened Naming
  import opened Listing
  import opened Matching
  import opened Pairing
  import opened IndexPage

  /** Where a file called `name` lands for an optional output directory:
      inside the directory when it is given, else in the working
      directory. */
  function Placed(outputDir: Option<string>, name: string): string
  {
    if Given(outputDir) then Join(outputDir.value, name) else name
  }

  /** The file `generate_index_html` writes: where it goes and what it
      holds. */
  datatype IndexFile = IndexFile(path: string, content: string)

  /** The index page lands where a file of its basename would for the same
      output directory: next to the diff pages. */
  lemma IndexPathPlaced(outputDir: Option<string>)
    ensures IndexPath(outputDir) == Placed(outputDir, Basename(IndexPath(outputDir)))
  {
    if Given(outputDir) {
      JoinBasename(outputDir.value, IndexFileName);
    } else {
      BasenameOfPlainName(DefaultIndexPath);
    }
  }

  /** The page reads back as its rows whenever no cell holds markup. */
  lemma IndexPageReadsBack(cs: seq<Comparison>)
    ensures (forall k :: 0 <= k < |cs| ==> Plain(cs[k])) ==> ParsePage(IndexHtmlContent(cs)) == Some(RowsOf(cs))
  {
    if forall k :: 0 <= k < |cs| ==> Plain(cs[k]) {
      IndexRoundTrip(cs);
    }
  }

  /** `generate_index_html(comparisons, output_dir)`, the write itself left
      out. The page lands in the same place as the diff pages, and it reads
      back as the comparisons' rows when no cell holds markup. */
  function GenerateIndexHtml(cs: seq<Comparison>, outputDir: Option<string>): (r: IndexFile)
    ensures r.path == Placed(outputDir, Basename(r.path))
    ensures Given(outputDir) ==> Basename(r.path) == IndexFileName
    ensures !Given(outputDir) ==> r.path == DefaultIndexPath
    ensures (forall k :: 0 <= k < |cs| ==> Plain(cs[k])) ==> ParsePage(r.content) == Some(RowsOf(cs))
  {
    IndexPathPlaced(outputDir);
    IndexPageReadsBack(cs);
    IndexFile(IndexPath(outputDir), IndexHtmlContent(cs))
  }

  /** Every row's link, taken relative to the index page's directory, is
      that comparison's diff page. */
  predicate LinksResolve(cs: seq<Comparison>, outputDir: Option<string>)
  {
    forall k :: 0 <= k < |cs| ==> cs[k].path == Placed(outputDir, Href(cs[k]))
  }

  /** A basename matched between two lists of paths has no '/'. */
  lemma CommonNamesPlain(files1: seq<string>, files2: seq<string>)
    ensures forall k :: 0 <= k < |CommonNames(Basenames(files1), Basenames(files2))| ==>
      '/' !in CommonNames(Basenames(files1), Basenames(files2))[k]
  {
    var bases1 := Basenames(files1);
    var common := CommonNames(bases1, Basenames(files2));
    forall k | 0 <= k < |common|
      ensures '/' !in common[k]
    {
      assert common[k] in bases1;
      var j :| 0 <= j < |bases1| && bases1[j] == common[k];
      assert bases1[j] == Basename(files1[j]);
    }
  }

  /** The page name of a '/'-free basename has no '/'. */
  lemma MatchPageNamePlain(name: string)
    requires '/' !in name
    ensures '/' !in MatchPageName(name)
  {
    assert '/' !in DiffPrefix && '/' !in HtmlSuffix;
  }

  /** The index page of `compare_directories` links to its diff pages. */
  lemma DirectoryLinksResolve(dir1: string, dir2: string, names1: seq<string>, names2: seq<string>,
                              outputDir: Option<string>)
    ensures LinksResolve(CompareDirectories(dir1, dir2, names1, names2, outputDir), outputDir)
  {
    var cs := CompareDirectories(dir1, dir2, names1, names2, outputDir);
    var common := MatchedNames(dir1, dir2, names1, names2);
    CommonNamesPlain(ListIrFiles(dir1, names1), ListIrFiles(dir2, names2));
    forall k | 0 <= k < |cs|
      ensures cs[k].path == Placed(outputDir, Href(cs[k]))
    {
      MatchPageNamePlain(common[k]);
      if Given(outputDir) {
        JoinBasename(outputDir.value, MatchPageName(common[k]));
      } else {
        DiffFileNameParts(common[k], common[k]);
        BasenameOfPlainName(cs[k].path);
      }
    }
  }

  /** The index page of `generate_all_comparisons` links to its diff
      pages. */
  lemma AllComparisonsLinksResolve(dir: string, names: seq<string>, outputDir: Option<string>)
    ensures LinksResolve(GenerateAllComparisons(dir, names, outputDir), outputDir)
  {
    var cs := GenerateAllComparisons(dir, names, outputDir);
    forall k | 0 <= k < |cs|
      ensures cs[k].path == Placed(outputDir, Href(cs[k]))
    {
    }
  }

  /** Distinct entry names joined onto one directory give distinct paths. */
  lemma JoinInjective(dir: string, a: string, b: string)
    requires '/' !in a && '/' !in b && a != b
    ensures Join(dir, a) != Join(dir, b)
  {
    JoinBasename(dir, a);
    JoinBasename(dir, b);
  }

  /** A fixed prefix and suffix around a name determine the name. */
  lemma AffixInjective(p: string, a: string, b: string, q: string)
    ensures p + a + q == p + b + q ==> a == b
  {
    if p + a + q == p + b + q {
      assert |a| == |b|;
      assert (p + a + q)[|p|..|p| + |a|] == a;
      assert (p + b + q)[|p|..|p| + |b|] == b;
    }
  }

  /** Distinct basenames get distinct page names, with or without an output
      directory. */
  lemma MatchPagesDiffer(a: string, b: string)
    requires a != b
    ensures MatchPageName(a) != MatchPageName(b)
    ensures DiffFileName(a, a) != DiffFileName(b, b)
  {
    AffixInjective(DiffPrefix, a, b, HtmlSuffix);
    DiffFileNameParts(a, a);
    DiffFileNameParts(b, b);
  }

  /** `compare_directories` never writes two comparisons to the same page. */
  lemma DirectoryPagesDistinct(dir1: string, dir2: string, names1: seq<string>, names2: seq<string>,
                               outputDir: Option<string>)
    ensures var cs := CompareDirectories(dir1, dir2, names1, names2, outputDir);
      forall i, j :: 0 <= i < j < |cs| ==> cs[i].path != cs[j].path
  {
    var cs := CompareDirectories(dir1, dir2, names1, names2, outputDir);
    var files1 := ListIrFiles(dir1, names1);
    var files2 := ListIrFiles(dir2, names2);
    var common := MatchedNames(dir1, dir2, names1, names2);
    CommonNamesOrder(Basenames(files1), Basenames(files2));
    CommonNamesPlain(files1, files2);
    forall i, j | 0 <= i < j < |cs|
      ensures cs[i].path != cs[j].path
    {
      MatchPagesDiffer(common[i], common[j]);
      if Given(outputDir) {
        MatchPageNamePlain(common[i]);
        MatchPageNamePlain(common[j]);
        JoinInjective(outputDir.value, MatchPageName(common[i]), MatchPageName(common[j]));
      }
    }
  }
}

=== FILE: seqs.dfy ===
/** Sequence vocabulary shared by the model: flattening a list of lists,
    distinctness, first occurrence, order of two elements, and the
    insertion-ordered key list of a Python dict. */
module Seqs {

  /** Python's `[item for sub in ss for item in sub]`. */
  function Flatten<T>(ss: seq<seq<T>>): seq<T>
  {
    if |ss| == 0 then [] else ss[0] + Flatten(ss[1..])
  }

  lemma {:induction false} FlattenAppend<T>(a: seq<seq<T>>, b: seq<seq<T>>)
    ensures Flatten(a + b) == Flatten(a) + Flatten(b)
    decreases |a|
  {
    if |a| == 0 {
      assert a + b == b;
    } else {
      assert (a + b)[1..] == a[1..] + b;
      FlattenAppend(a[1..], b);
    }
  }

  /** A property of every item of every inner list holds for every item of
      the flattened list. */
  lemma {:induction false} FlattenAll<T>(ss: seq<seq<T>>, ok: T -> bool)
    requires forall i, k :: 0 <= i < |ss| && 0 <= k < |ss[i]| ==> ok(ss[i][k])
    ensures forall k :: 0 <= k < |Flatten(ss)| ==> ok(Flatten(ss)[k])
    decreases |ss|
  {
    if |ss| > 0 {
      var rest := Flatten(ss[1..]);
      assert forall i, k :: 0 <= i < |ss[1..]| && 0 <= k < |ss[1..][i]| ==> ok(ss[1..][i][k]) by {
        forall i, k | 0 <= i < |ss[1..]| && 0 <= k < |ss[1..][i]|
          ensures ok(ss[1..][i][k])
        {
          assert ss[1..][i] == ss[i + 1];
        }
      }
      FlattenAll(ss[1..], ok);
      forall k | 0 <= k < |Flatten(ss)|
        ensures ok(Flatten(ss)[k])
      {
        if k < |ss[0]| {
          assert Flatten(ss)[k] == ss[0][k];
        } else {
          assert Flatten(ss)[k] == rest[k - |ss[0]|];
        }
      }
    }
  }

  /** No element occurs twice. */
  ghost predicate Distinct<T>(s: seq<T>)
  {
    forall i, j :: 0 <= i < j < |s| ==> s[i] != s[j]
  }

  /** Two lists without repeats and without a common element concatenate to
      a list without repeats. */
  lemma DistinctAppend<T>(a: seq<T>, b: seq<T>)
    requires Distinct(a) && Distinct(b)
    requires forall i, j :: 0 <= i < |a| && 0 <= j < |b| ==> a[i] != b[j]
    ensures Distinct(a + b)
  {
    var c := a + b;
    forall i, j | 0 <= i < j < |c|
      ensures c[i] != c[j]
    {
      if j < |a| {
        assert c[i] == a[i] && c[j] == a[j];
      } else if i < |a| {
        assert c[i] == a[i] && c[j] == b[j - |a|];
      } else {
        assert c[i] == b[i - |a|] && c[j] == b[j - |a|];
      }
    }
  }

  /** `a` occurs strictly before some occurrence of `b`. */
  ghost predicate Before<T>(s: seq<T>, a: T, b: T)
  {
    exists i, j :: 0 <= i < j < |s| && s[i] == a && s[j] == b
  }

  /** Position of the first occurrence of `x` (Python's `list.index`). */
  function FirstIndex<T(==)>(s: seq<T>, x: T): (r: nat)
    requires x in s
    ensures r < |s| && s[r] == x
    ensures x !in s[..r]
  {
    if s[0] == x then 0 else 1 + FirstIndex(s[1..], x)
  }

  /** The key order of a Python dict filled from `s`: each value once, at the
      place where it was first inserted. */
  function Dedup<T(==)>(s: seq<T>): (r: seq<T>)
    ensures forall i :: 0 <= i < |r| ==> r[i] in s
    ensures forall i :: 0 <= i < |s| ==> s[i] in r
    ensures Distinct(r)
    decreases |s|
  {
    if |s| == 0 then []
    else
      var init := s[..|s| - 1];
      var x := s[|s| - 1];
      assert forall i :: 0 <= i < |init| ==> s[i] == init[i];
      if x in init then Dedup(init) else Dedup(init) + [x]
  }

  /** Appending to a sequence leaves first occurrences in the prefix alone. */
  lemma {:induction false} FirstIndexSnoc<T>(init: seq<T>, x: T, y: T)
    requires y in init
    ensures FirstIndex(init + [x], y) == FirstIndex(init, y)
    decreases |init|
  {
    if init[0] != y {
      assert (init + [x])[1..] == init[1..] + [x];
      FirstIndexSnoc(init[1..], x, y);
    }
  }

  lemma {:induction false} FirstIndexNew<T>(init: seq<T>, x: T)
    requires x !in init
    ensures FirstIndex(init + [x], x) == |init|
    decreases |init|
  {
    if |init| > 0 {
      assert (init + [x])[1..] == init[1..] + [x];
      FirstIndexNew(init[1..], x);
    }
  }

  /** The dict keys come out in order of first insertion. */
  lemma {:induction false} DedupFirstSeenOrder<T>(s: seq<T>)
    ensures forall i, j :: 0 <= i < j < |Dedup(s)| ==> FirstIndex(s, Dedup(s)[i]) < FirstIndex(s, Dedup(s)[j])
    decreases |s|
  {
    if |s| > 0 {
      var init := s[..|s| - 1];
      var x := s[|s| - 1];
      assert s == init + [x];
      DedupFirstSeenOrder(init);
      var d := Dedup(init);
      forall y | y in d
        ensures FirstIndex(s, y) == FirstIndex(init, y)
      {
        FirstIndexSnoc(init, x, y);
      }
      if x !in init {
        FirstIndexNew(init, x);
        assert Dedup(s) == d + [x];
        forall i, j | 0 <= i < j < |Dedup(s)|
          ensures FirstIndex(s, Dedup(s)[i]) < FirstIndex(s, Dedup(s)[j])
        {
          assert Dedup(s)[i] == d[i];
          if j < |d| {
            assert Dedup(s)[j] == d[j];
          }
        }
      }
    }
  }

  /** Python's `[x for x in s if keep(x)]`. */
  function Filter<T>(s: seq<T>, keep: T -> bool): (r: seq<T>)
    ensures |r| <= |s|
    ensures forall i :: 0 <= i < |r| ==> keep(r[i])
  {
    if |s| == 0 then []
    else (if keep(s[0]) then [s[0]] else []) + Filter(s[1..], keep)
  }

  /** The test `x in other` as a function value. */
  function Within<T(==)>(other: seq<T>): T -> bool
  {
    x => x in other
  }

  /** Filtering a concatenation filters each part. */
  lemma {:induction false} FilterAppend<T>(a: seq<T>, b: seq<T>, keep: T -> bool)
    ensures Filter(a + b, keep) == Filter(a, keep) + Filter(b, keep)
    decreases |a|
  {
    if |a| == 0 {
      assert a + b == b;
    } else {
      assert (a + b)[1..] == a[1..] + b;
      FilterAppend(a[1..], b, keep);
    }
  }

  /** The filter takes elements of `s` and nothing else, and every element
      that passes. */
  lemma {:induction false} FilterMembers<T>(s: seq<T>, keep: T -> bool)
    ensures forall i :: 0 <= i < |Filter(s, keep)| ==> Filter(s, keep)[i] in s
    ensures forall i :: 0 <= i < |s| && keep(s[i]) ==> s[i] in Filter(s, keep)
    decreases |s|
  {
    if |s| > 0 {
      var tail := s[1..];
      var rest := Filter(tail, keep);
      var r := Filter(s, keep);
      var d := if keep(s[0]) then 1 else 0;
      FilterMembers(tail, keep);
      assert forall i :: 1 <= i < |s| ==> s[i] == tail[i - 1];
      forall i | d <= i < |r|
        ensures r[i] in s
      {
        assert r[i] == rest[i - d];
        var m :| 0 <= m < |tail| && tail[m] == rest[i - d];
        assert s[m + 1] == tail[m];
      }
    }
  }

  /** Filtering a single element keeps it exactly when it passes. */
  lemma FilterSingle<T>(x: T, keep: T -> bool)
    ensures Filter([x], keep) == if keep(x) then [x] else []
  {
    assert [x][1..] == [];
  }

  /** Nothing passes a filter that no element passes. */
  lemma {:induction false} FilterNone<T>(s: seq<T>, keep: T -> bool)
    requires forall i :: 0 <= i < |s| ==> !keep(s[i])
    ensures Filter(s, keep) == []
    decreases |s|
  {
    if |s| > 0 {
      FilterNone(s[1..], keep);
    }
  }

  /** Filtering keeps distinct elements distinct. */
  lemma {:induction false} FilterDistinct<T>(s: seq<T>, keep: T -> bool)
    requires Distinct(s)
    ensures Distinct(Filter(s, keep))
    decreases |s|
  {
    if |s| > 0 {
      var tail := s[1..];
      FilterDistinct(tail, keep);
      assert forall i :: 0 <= i < |tail| ==> tail[i] == s[i + 1];
      assert s[0] !in tail;
      var rest := Filter(tail, keep);
      FilterMembers(tail, keep);
      forall k | 0 <= k < |rest|
        ensures rest[k] != s[0]
      {
        assert rest[k] in tail;
      }
    }
  }

  /** The `i`-th element the filter takes sits at position `i` or later in
      `s`. */
  lemma {:induction false} FilterFrom<T>(s: seq<T>, keep: T -> bool, i: nat) returns (p: nat)
    requires i < |Filter(s, keep)|
    ensures i <= p < |s| && s[p] == Filter(s, keep)[i]
    decreases |s|
  {
    var tail := s[1..];
    var rest := Filter(tail, keep);
    var r := Filter(s, keep);
    if keep(s[0]) {
      assert r == [s[0]] + rest;
      if i == 0 {
        p := 0;
      } else {
        var p' := FilterFrom(tail, keep, i - 1);
        assert r[i] == rest[i - 1];
        p := p' + 1;
      }
    } else {
      assert r == rest;
      var p' := FilterFrom(tail, keep, i);
      p := p' + 1;
    }
  }

  /** The filter keeps relative order: its `i`-th and `j`-th elements
      (`i < j`) sit at increasing positions in `s`. */
  lemma {:induction false} FilterOrder<T>(s: seq<T>, keep: T -> bool, i: nat, j: nat) returns (p: nat, q: nat)
    requires i < j < |Filter(s, keep)|
    ensures p < q < |s|
    ensures s[p] == Filter(s, keep)[i] && s[q] == Filter(s, keep)[j]
    decreases |s|
  {
    var tail := s[1..];
    var rest := Filter(tail, keep);
    var r := Filter(s, keep);
    if keep(s[0]) {
      assert r == [s[0]] + rest;
      assert r[j] == rest[j - 1];
      if i == 0 {
        var q' := FilterFrom(tail, keep, j - 1);
        p, q := 0, q' + 1;
      } else {
        var p', q' := FilterOrder(tail, keep, i - 1, j - 1);
        assert r[i] == rest[i - 1];
        p, q := p' + 1, q' + 1;
      }
    } else {
      assert r == rest;
      var p', q' := FilterOrder(tail, keep, i, j);
      p, q := p' + 1, q' + 1;
    }
  }


  /** The filter keeps `a` before `b` exactly when both pass and `a` comes
      before `b` in `s`. */
  lemma FilterBefore<T>(s: seq<T>, keep: T -> bool, a: T, b: T)
    ensures Before(Filter(s, keep), a, b) <==> Before(s, a, b) && keep(a) && keep(b)
  {
    var r := Filter(s, keep);
    if Before(r, a, b) {
      var i, j :| 0 <= i < j < |r| && r[i] == a && r[j] == b;
      var p, q := FilterOrder(s, keep, i, j);
      assert s[p] == a && s[q] == b;
    }
    if Before(s, a, b) && keep(a) && keep(b) {
      var p, q :| 0 <= p < q < |s| && s[p] == a && s[q] == b;
      var i, j := FilterTakes(s, keep, p, q);
    }
  }

  /** Two passing elements at increasing positions of `s` are taken by the
      filter at increasing positions. */
  lemma {:induction false} FilterTakes<T>(s: seq<T>, keep: T -> bool, p: nat, q: nat) returns (i: nat, j: nat)
    requires p < q < |s| && keep(s[p]) && keep(s[q])
    ensures i < j < |Filter(s, keep)|
    ensures Filter(s, keep)[i] == s[p] && Filter(s, keep)[j] == s[q]
    decreases |s|
  {
    var tail := s[1..];
    var rest := Filter(tail, keep);
    var r := Filter(s, keep);
    assert s[q] == tail[q - 1];
    if p == 0 {
      assert r == [s[0]] + rest;
      FilterMembers(tail, keep);
      var j' :| 0 <= j' < |rest| && rest[j'] == s[q];
      i, j := 0, j' + 1;
    } else {
      assert s[p] == tail[p - 1];
      var i', j' := FilterTakes(tail, keep, p - 1, q - 1);
      if keep(s[0]) {
        assert r == [s[0]] + rest;
        i, j := i' + 1, j' + 1;
      } else {
        assert r == rest;
        i, j := i', j';
      }
    }
  }

}

=== FILE: wrap.dfy ===
/** Line wrapping done before the two files are handed to the side-by-side
    differ: `_wrap_line` splits one over-long line into fixed-width chunks,
    and `create_github_style_diff` maps it over every line of both files and
    flattens the result. */
module Wrap {
  import opened Wrappers
  import opened Seqs
  import opened Paths

  /** The two exceptions `_wrap_line` can raise for a non-positive width:
      `range` with step 0 (ValueError) and `chunks[-1]` on an empty list
      (IndexError). */
  datatype WrapError = ZeroStep | NoChunks

  predicate EndsWithNewline(s: string)
  {
    |s| > 0 && s[|s| - 1] == '\n'
  }

  /** `s` without its final '\n', if it has one. */
  function TrimNewline(s: string): string
  {
    if EndsWithNewline(s) then s[..|s| - 1] else s
  }

  /** `[s[i:i+w] for i in range(0, len(s), w)]`: consecutive pieces of `s`,
      all `w` long except a shorter, non-empty last one; there are
      ceil(|s| / w) of them (stated without division: `w` times their number
      is `|s|` rounded up to a multiple of `w`) and together they spell `s`. */
  function Chunks(s: string, w: nat): (r: seq<string>)
    requires w > 0
    ensures |s| > 0 <==> |r| > 0
    ensures forall k :: 0 <= k < |r| - 1 ==> |r[k]| == w
    ensures |r| > 0 ==> 1 <= |r[|r| - 1]| <= w
    decreases |s|
  {
    if |s| == 0 then []
    else if |s| <= w then [s]
    else [s[..w]] + Chunks(s[w..], w)
  }

  /** Concatenating the chunks gives `s` back. */
  lemma {:induction false} ChunksFlatten(s: string, w: nat)
    requires w > 0
    ensures Flatten(Chunks(s, w)) == s
    decreases |s|
  {
    if 0 < |s| <= w {
      assert Flatten([s]) == s + Flatten([]);
    } else if |s| > w {
      var rest := Chunks(s[w..], w);
      assert ([s[..w]] + rest)[1..] == rest;
      ChunksFlatten(s[w..], w);
      assert s[..w] + s[w..] == s;
    }
  }

  /** There are ceil(|s| / w) chunks, stated without division: `w` times
      their number is `|s|` rounded up to a multiple of `w`. */
  lemma {:induction false} ChunkCount(s: string, w: nat)
    requires w > 0
    ensures |s| <= |Chunks(s, w)| * w < |s| + w
    decreases |s|
  {
    if |s| > w {
      ChunkCount(s[w..], w);
      var n := |Chunks(s[w..], w)|;
      assert |Chunks(s, w)| == n + 1;
      MulSucc(n, w);
    }
  }

  lemma MulSucc(n: nat, w: nat)
    ensures (n + 1) * w == n * w + w
  {
  }

  /** `start` is `k * w`, spelled out as `k` steps of `w`. */
  predicate StepsOf(start: nat, k: nat, w: nat)
  {
    if k == 0 then start == 0 else start >= w && StepsOf(start - w, k - 1, w)
  }

  lemma {:induction false} StepsOfProduct(k: nat, w: nat)
    ensures k * w >= 0 && StepsOf(k * w, k, w)
  {
    if k > 0 {
      assert k * w - w == (k - 1) * w;
      StepsOfProduct(k - 1, w);
    }
  }

  function Min(a: int, b: int): int
  {
    if a < b then a else b
  }

  /** Chunk `k` is the slice of `s` from `k * w` to `k * w + w` (clipped to
      the end of `s`), as the comprehension writes it. */
  lemma ChunkAt(s: string, w: nat, k: nat)
    requires w > 0 && k < |Chunks(s, w)|
    ensures k * w < |s|
    ensures Chunks(s, w)[k] == s[k * w .. Min(k * w + w, |s|)]
  {
    StepsOfProduct(k, w);
    ChunkAtStart(s, w, k, k * w);
  }

  lemma {:induction false} ChunkAtStart(s: string, w: nat, k: nat, start: nat)
    requires w > 0 && k < |Chunks(s, w)| && StepsOf(start, k, w)
    ensures start < |s|
    ensures Chunks(s, w)[k] == s[start .. Min(start + w, |s|)]
    decreases |s|
  {
    if k > 0 {
      var t := s[w..];
      var rest := Chunks(t, w);
      assert Chunks(s, w)[k] == rest[k - 1];
      var a := start - w;
      ChunkAtStart(t, w, k - 1, a);
      var b := Min(a + w, |t|);
      assert rest[k - 1] == t[a .. b];
      assert w + a == start && w + b == Min(start + w, |s|);
      SuffixSlice(s, w, a, b);
    }
  }

  /** A slice of a suffix is the shifted slice of the whole. */
  lemma SuffixSlice<T>(s: seq<T>, w: nat, a: nat, b: nat)
    requires w <= |s| && a <= b <= |s| - w
    ensures s[w..][a .. b] == s[w + a .. w + b]
  {
    forall i | 0 <= i < b - a
      ensures s[w..][a .. b][i] == s[w + a .. w + b][i]
    {
    }
  }

  function AppendNewline(chunks: seq<string>): (r: seq<string>)
    ensures |r| == |chunks|
    ensures forall k :: 0 <= k < |r| ==> r[k] == chunks[k] + "\n"
  {
    seq(|chunks|, k requires 0 <= k < |chunks| => chunks[k] + "\n")
  }

  /** `_wrap_line(line, width)`. A line that fits is returned alone. A longer
      one loses its trailing '\n' (if any), is cut into `width`-sized chunks,
      and gets '\n' back on the last chunk only if it had one; without one,
      EVERY chunk, the last included, gets a '\n'. A non-positive width
      raises for every line that does not fit. */
  function WrapLine(line: string, width: int): (r: Result<seq<string>, WrapError>)
    ensures |line| <= width ==> r == Success([line])
    ensures r.Failure? <==> width <= 0 && |line| > width
    ensures r.Failure? && width == 0 ==> r.error == ZeroStep
    ensures r.Failure? && width < 0 ==> r.error == NoChunks
    ensures r.Success? ==> |r.value| >= 1
  {
    if |line| <= width then Success([line])
    else if width == 0 then Failure(ZeroStep)
    else if width < 0 then Failure(NoChunks)
    else
      var chunks := Chunks(TrimNewline(line), width);
      if EndsWithNewline(line) then
        Success(chunks[..|chunks| - 1] + [chunks[|chunks| - 1] + "\n"])
      else
        Success(AppendNewline(chunks))
  }

  /** Shape of a wrapped long line: ceil(|stripped| / width) chunks; before
      the '\n' is put back every chunk but the last is exactly `width` long
      and the last holds 1 to `width` characters. */
  lemma WrapLongLineShape(line: string, width: int)
    requires 1 <= width < |line|
    ensures WrapLine(line, width).Success?
    ensures var r := WrapLine(line, width).value;
      var extra := if EndsWithNewline(line) then 0 else 1;
      && |TrimNewline(line)| <= |r| * width < |TrimNewline(line)| + width
      && (forall k :: 0 <= k < |r| - 1 ==> |r[k]| == width + extra)
      && 2 <= |r[|r| - 1]| <= width + 1
      && EndsWithNewline(r[|r| - 1])
  {
    var body := TrimNewline(line);
    var chunks := Chunks(body, width);
    ChunkCount(body, width);
    var n := |chunks|;
    var r := WrapLine(line, width).value;
    if EndsWithNewline(line) {
      assert r == chunks[..n - 1] + [chunks[n - 1] + "\n"];
      assert forall k :: 0 <= k < n - 1 ==> r[k] == chunks[k];
    } else {
      assert r == AppendNewline(chunks);
    }
    assert r[n - 1] == chunks[n - 1] + "\n";
  }

  /** A line that ends in '\n' is reproduced exactly by its chunks, and the
      last chunk keeps the '\n'. */
  lemma WrapRoundTripWithNewline(line: string, width: int)
    requires 1 <= width && EndsWithNewline(line)
    ensures WrapLine(line, width).Success?
    ensures Flatten(WrapLine(line, width).value) == line
    ensures var r := WrapLine(line, width).value;
      EndsWithNewline(r[|r| - 1])
  {
    var r := WrapLine(line, width).value;
    if |line| > width {
      var body := line[..|line| - 1];
      assert TrimNewline(line) == body;
      var chunks := Chunks(body, width);
      var n := |chunks|;
      ChunksFlatten(body, width);
      var init := chunks[..n - 1];
      assert r == init + [chunks[n - 1] + "\n"];
      assert chunks == init + [chunks[n - 1]];
      FlattenAppend(init, [chunks[n - 1]]);
      FlattenAppend(init, [chunks[n - 1] + "\n"]);
      assert Flatten([chunks[n - 1] + "\n"]) == chunks[n - 1] + "\n" + Flatten([]);
      assert Flatten([chunks[n - 1]]) == chunks[n - 1] + Flatten([]);
      assert line == body + "\n";
    } else {
      assert Flatten(r) == line + Flatten([]);
    }
  }

  /** Every character of a chunk comes from `s`. */
  lemma {:induction false} ChunkCharsFrom(s: string, w: nat, k: nat, c: char)
    requires w > 0 && k < |Chunks(s, w)| && c in Chunks(s, w)[k]
    ensures c in s
    decreases |s|
  {
    if |s| > w {
      if k == 0 {
        assert Chunks(s, w)[0] == s[..w];
      } else {
        assert Chunks(s, w)[k] == Chunks(s[w..], w)[k - 1];
        ChunkCharsFrom(s[w..], w, k - 1, c);
      }
    }
  }

  /** A line read by `readlines` has its one '\n' at the end; wrapped, only
      its last chunk ends in '\n' (none of the others contains one). */
  lemma WrapSingleNewline(line: string, width: int)
    requires 1 <= width && EndsWithNewline(line) && '\n' !in line[..|line| - 1]
    ensures WrapLine(line, width).Success?
    ensures var r := WrapLine(line, width).value;
      forall k :: 0 <= k < |r| - 1 ==> '\n' !in r[k]
  {
    var r := WrapLine(line, width).value;
    if |line| > width {
      var body := line[..|line| - 1];
      assert TrimNewline(line) == body;
      var chunks := Chunks(body, width);
      forall k | 0 <= k < |r| - 1
        ensures '\n' !in r[k]
      {
        assert r[k] == chunks[k];
        if '\n' in chunks[k] {
          ChunkCharsFrom(body, width, k, '\n');
        }
      }
    }
  }

  /** A long line without a trailing '\n' comes back with '\n' after every
      chunk, the last one included; taking those off and concatenating gives
      the line back. */
  lemma WrapRoundTripWithoutNewline(line: string, width: int)
    requires 1 <= width < |line| && !EndsWithNewline(line)
    ensures WrapLine(line, width).Success?
    ensures var r := WrapLine(line, width).value;
      forall k :: 0 <= k < |r| ==> EndsWithNewline(r[k])
    ensures var r := WrapLine(line, width).value;
      Flatten(seq(|r|, k requires 0 <= k < |r| => TrimNewline(r[k]))) == line
  {
    var r := WrapLine(line, width).value;
    var chunks := Chunks(line, width);
    ChunksFlatten(line, width);
    assert seq(|r|, k requires 0 <= k < |r| => TrimNewline(r[k])) == chunks by {
      forall k | 0 <= k < |r|
        ensures TrimNewline(r[k]) == chunks[k]
      {
        assert r[k] == chunks[k] + "\n";
        assert r[k][..|r[k]| - 1] == chunks[k];
      }
    }
  }

  /** The wrap-and-flatten step of `create_github_style_diff`: every line is
      wrapped and the chunk lists are concatenated; the comprehension stops
      at the first line `_wrap_line` raises on. */
  function WrapLines(lines: seq<string>, width: int): (r: Result<seq<string>, WrapError>)
    ensures width >= 1 ==> r.Success?
    ensures r.Success? ==> |r.value| >= |lines|
    ensures r.Failure? ==> exists i :: 0 <= i < |lines| && WrapLine(lines[i], width) == Failure(r.error)
    ensures (exists i :: 0 <= i < |lines| && WrapLine(lines[i], width).Failure?) ==> r.Failure?
    decreases |lines|
  {
    if |lines| == 0 then Success([])
    else
      match WrapLine(lines[0], width)
      case Failure(e) => Failure(e)
      case Success(first) =>
        var tail := WrapLines(lines[1..], width);
        assert forall i :: 1 <= i < |lines| ==> lines[1..][i - 1] == lines[i];
        match tail
        case Failure(e) => Failure(e)
        case Success(rest) => Success(first + rest)
  }

  /** The chunk list of each line, in input order. */
  function Blocks(lines: seq<string>, width: int): seq<seq<string>>
    requires width >= 1
  {
    seq(|lines|, i requires 0 <= i < |lines| => WrapLine(lines[i], width).value)
  }

  /** Each input line contributes one consecutive block of output lines, in
      input order. */
  lemma {:induction false} WrapLinesBlocks(lines: seq<string>, width: int)
    requires width >= 1
    ensures WrapLines(lines, width) == Success(Flatten(Blocks(lines, width)))
    decreases |lines|
  {
    if |lines| > 0 {
      WrapLinesBlocks(lines[1..], width);
      assert Blocks(lines, width)[1..] == Blocks(lines[1..], width);
    }
  }

  /** A file whose lines all fit is passed on untouched. */
  lemma {:induction false} WrapLinesShortFile(lines: seq<string>, width: int)
    requires forall i :: 0 <= i < |lines| ==> |lines[i]| <= width
    ensures WrapLines(lines, width) == Success(lines)
    decreases |lines|
  {
    if |lines| > 0 {
      WrapLinesShortFile(lines[1..], width);
      assert [lines[0]] + lines[1..] == lines;
    }
  }

  /** When every line either fits or ends in '\n' (as every line that
      `readlines` returns does, except possibly the last), wrapping does not
      change the text of the file, only where it is broken into lines. */
  lemma {:induction false} WrapLinesKeepsText(lines: seq<string>, width: int)
    requires width >= 1
    requires forall i :: 0 <= i < |lines| ==> EndsWithNewline(lines[i]) || |lines[i]| <= width
    ensures Flatten(WrapLines(lines, width).value) == Flatten(lines)
    decreases |lines|
  {
    if |lines| > 0 {
      var first := WrapLine(lines[0], width).value;
      WrapLinesKeepsText(lines[1..], width);
      if EndsWithNewline(lines[0]) {
        WrapRoundTripWithNewline(lines[0], width);
      } else {
        assert Flatten(first) == lines[0] + Flatten([]);
      }
      FlattenAppend(first, WrapLines(lines[1..], width).value);
    }
  }

  /** No piece of a wrapped line is longer than the width plus a '\n'. */
  lemma WrapLineWidth(line: string, width: int)
    requires width >= 1
    ensures var r := WrapLine(line, width).value;
      forall k :: 0 <= k < |r| ==> |r[k]| <= width + 1
  {
    if |line| > width {
      WrapLongLineShape(line, width);
    }
  }

  /** No wrapped line is longer than the width plus its '\n'. */
  lemma WrapLinesWidth(lines: seq<string>, width: int)
    requires width >= 1
    ensures forall k :: 0 <= k < |WrapLines(lines, width).value| ==> |WrapLines(lines, width).value[k]| <= width + 1
  {
    var blocks := Blocks(lines, width);
    WrapLinesBlocks(lines, width);
    forall i, k | 0 <= i < |blocks| && 0 <= k < |blocks[i]|
      ensures |blocks[i][k]| <= width + 1
    {
      WrapLineWidth(lines[i], width);
    }
    FlattenAll(blocks, (s: string) => |s| <= width + 1);
  }

  /** The tab size the differ is configured with. */
  const TabSize: nat := 4

  /** Everything `create_github_style_diff` passes to `HtmlDiff.make_file`. */
  datatype DiffRequest = DiffRequest(
    fromLines: seq<string>, toLines: seq<string>,
    fromDesc: string, toDesc: string,
    tabSize: nat, context: bool)

  /** The pure part of `create_github_style_diff`, from the two files' lines
      (already read) to the differ's input: both sides wrapped, the two
      basenames as headings, tab size 4, and the full file rather than
      context hunks. */
  function PrepareDiff(lines1: seq<string>, lines2: seq<string>, path1: string, path2: string, width: int)
    : (r: Result<DiffRequest, WrapError>)
    ensures width >= 1 ==> r.Success?
    ensures r.Failure? <==> WrapLines(lines1, width).Failure? || WrapLines(lines2, width).Failure?
    ensures r.Success? ==>
      && |r.value.fromLines| >= |lines1| && |r.value.toLines| >= |lines2|
      && r.value.fromDesc == Basename(path1) && r.value.toDesc == Basename(path2)
      && '/' !in r.value.fromDesc && '/' !in r.value.toDesc
      && |r.value.fromDesc| <= |path1| && path1[|path1| - |r.value.fromDesc|..] == r.value.fromDesc
      && |r.value.toDesc| <= |path2| && path2[|path2| - |r.value.toDesc|..] == r.value.toDesc
      && r.value.tabSize == TabSize && !r.value.context
    ensures width >= 1 ==>
      && r.value.fromLines == Flatten(Blocks(lines1, width))
      && r.value.toLines == Flatten(Blocks(lines2, width))
    ensures width >= 1 ==>
      && (forall k :: 0 <= k < |r.value.fromLines| ==> |r.value.fromLines[k]| <= width + 1)
      && (forall k :: 0 <= k < |r.value.toLines| ==> |r.value.toLines[k]| <= width + 1)
  {
    assert width >= 1 ==>
      && WrapLines(lines1, width) == Success(Flatten(Blocks(lines1, width)))
      && WrapLines(lines2, width) == Success(Flatten(Blocks(lines2, width)))
      && (forall k :: 0 <= k < |WrapLines(lines1, width).value| ==> |WrapLines(lines1, width).value[k]| <= width + 1)
      && (forall k :: 0 <= k < |WrapLines(lines2, width).value| ==> |WrapLines(lines2, width).value[k]| <= width + 1)
    by {
      if width >= 1 {
        WrapLinesBlocks(lines1, width);
        WrapLinesBlocks(lines2, width);
        WrapLinesWidth(lines1, width);
        WrapLinesWidth(lines2, width);
      }
    }
    match WrapLines(lines1, width)
    case Failure(e) => Failure(e)
    case Success(left) =>
      match WrapLines(lines2, width)
      case Failure(e) => Failure(e)
      case Success(right) =>
        Success(DiffRequest(left, right, Basename(path1), Basename(path2), TabSize, false))
  }
}

=== FILE: wrappers.dfy ===
/** Failure-carrying datatypes used across the model: an optional value
    (Python's `None` or a value) and a success-or-error result (a raised
    exception becomes a `Failure`). */
module Wrappers {

  datatype Option<+T> = None | Some(value: T)

  datatype Result<+R, +E> = Success(value: R) | Failure(error: E)
}
